=== FILE: README.md ===
# music-analizer audio bookkeeping, modelled in Dafny

This project models the parts of the music-analizer analysis scripts that are more than calls
into librosa, YAMNet or PostgreSQL. It covers five areas.

- **Silence detection in a vocal stem** (`detect_silent_sections`, current and older copy).
  - The waveform is cut into windows of 2048 samples at every multiple of 512.
  - A window is silent when its dB energy is strictly below the threshold.
  - One forward pass groups consecutive silent frames into `[start, end]` sections. A section is
    kept only when its running duration reaches the minimum.
- **The duplicate filter of `insert_soro_records`.** A detected section becomes a new Soro row
  only when it hits none of the sections already stored for the song. Also the folder-name
  `extract_song_id` next to it.
- **Segment scoring of a guitar stem** (`is_guitar_analyze_duration`, `yamnet_guitar_detection`).
  - `segment_audio` cuts the waveform into fixed-size segments.
  - `detect_guitar_in_segments` gives one YAMNet score per segment. The first script scores a
    failed segment as 0; the second has no such fallback.
  - `main` decides "guitar" exactly when the maximum score is strictly above 0.5. It writes that
    decision and score back to every stored interval of the song whose id it reads from the
    file's directory name.
- **Dominant pitches** (`analyze_dominant_pitch`). For each column of a pitch-tracking result,
  the strongest bin is picked among those whose magnitude is strictly above a confidence
  threshold and whose frequency lies in [80, 1500] Hz.
- **Playing-style classification** (`detect_guitar_playing_style_with_dominance`).
  - Each interval is cut into `len // frame_length + 1` sub-frames.
  - The dominant pitches of the sub-frames are counted.
  - The interval is single-note playing when the average is at most 2, and chordal otherwise.

Modules, one per file:

- `Py` (`py.dfy`): the Python semantics the scripts rely on. Exceptions become a `Result`;
  `int(x)` of a float truncates; `s[i:j]` clips; `a // b` floors.
- `PyText` (`text.dfy`): `int(str)`, `str(int)`, `split(sep)[0]`, and POSIX `dirname` and
  `basename`.
- `SilenceDetection` (`silence.dfy`) and `SilenceDetectionLegacy` (`silence_legacy.dfy`).
- `SoroRecords` (`soro.dfy`).
- `Segmenting` (`segments.dfy`), shared by both YAMNet scripts.
- `GuitarScores` (`scores.dfy`): the `> 0.5` decision.
- `GuitarDetection` (`guitar_detection.dfy`) and `YamnetDetection` (`yamnet_detection.dfy`).
- `DominantPitch` (`pitch.dfy`) and `PlayingStyle` (`style.dfy`).

The loops of the scripts are methods with loop invariants. Each loop method is proved equal to
a specification function, or states its result directly; lemmas prove what the scripts promise
about those functions. `GroupFrame`, the body of the silence-grouping loop, is proved to keep
that loop's invariant.

Several calls become parameters of the model:

- the dB conversion `10 * log10(e + 1e-6)` is `toDb`;
- `librosa.effects.hpss` followed by `librosa.piptrack` is `track`;
- YAMNet inference is `infer`, which includes gathering the guitar classes, summing them and
  taking the maximum over frames;
- reading the stored intervals of a song is `intervalsOf`;
- loading one stored interval of a given file and scoring its segments is `scoresOf`, which takes
  the file path and the interval.

Times are exact rationals: frame i starts at `i * 512 / sr` seconds, and a run of c silent frames
has a running duration of `c * (512 / sr)`.

Where the source's comments and its code differ, or where the code does something its comments
do not mention, the model follows the code:

- The comment next to the guitar decision says a maximum score of 0.5 or more means guitar, but
  the code tests `max_score > 0.5` (`is_guitar_analyze_duration.py` line 238,
  `yamnet_guitar_detection.py` line 83). The model uses the strict test, and a score of exactly
  0.5 detects no guitar.
- An empty waveform gives no silent sections and no error.
- A time range is cut with Python slicing. An out-of-range or reversed range gives a clipped or
  empty section, never an error.
- A section whose silent run reaches the end of the waveform ends at `len(y) / sr`. That end can
  be up to one hop earlier than the running duration suggests. So the last section can be shorter
  than the minimum by less than `512 / sr` seconds.
- The exact-equality clause of the duplicate test is subsumed by the two containment clauses only
  for a stored section whose start is not after its end.
- The `IndexError` handler of the folder-name `extract_song_id` can never fire, because
  `split` always returns at least one piece.

## Model

| member | source | states |
|---|---|---|
| Py.Slice | app/scripts/analize/is_guitar_analyze.py:62 | `y[a:b]` is the plain sub-sequence for in-range bounds. Otherwise it is the sub-sequence between the clipped bounds (negative bounds count from the end), or empty when the clipped start is not before the clipped end; it never fails. |
| Py.TruncTowardZero | app/scripts/analize/is_guitar_analyze.py:60-61 | `int(t * sr)` drops the fractional part: it rounds a non-negative value down and a negative one up. |
| Py.FloorDivRounds | app/scripts/analize/is_guitar_analyze.py:65 | `len // fl` is the largest q with `q * fl <= len` for a positive fl, and the smallest q with `q * fl >= len` for a negative one. |
| PyText.ParseShowRoundTrip | app/scripts/analyze/duration_analyze.py:117 | `int()` of the decimal numeral of any integer, negative ones included, gives that integer back when the numeral has at most 4300 digits (the default of `sys.get_int_max_str_digits()`), and raises ValueError otherwise. |
| PyText.BeforeFirst | app/scripts/analyze/duration_analyze.py:116 | `split(sep)[0]` is a prefix of the string that contains no occurrence of the separator, and it is followed by one unless it is the whole string. |
| PyText.BeforeFirstOfJoin | app/scripts/analyze/duration_analyze.py:116 | Splitting `a + sep + rest` returns `a` when the separator's first character does not occur in `a`. |
| PyText.DirNameOfJoin | app/scripts/analyze/is_guitar_analyze_duration.py:124 | `dirname(a + "/" + b)` is `a` when `b` holds no slash and `a` does not end with one. |
| PyText.BaseNameOfDirName | app/scripts/analyze/is_guitar_analyze_duration.py:124-125 | `basename(dirname(dir/folder/file))` is exactly `folder`, whatever the directory and file names. |
| SilenceDetection.FrameOffsets | app/scripts/analyze/duration_analyze.py:19-21 | Frame k exists exactly when its offset `k * 512` is below `len(y)`, so there are `ceil(len(y) / 512)` frames. |
| SilenceDetection.WindowsShape | app/scripts/analyze/duration_analyze.py:17-21 | Every offset below `len(y)` starts a window and none at or past it does. Each window is the run of consecutive samples of `y` starting at its offset, exactly `min(2048, len(y) - offset)` long, so it is never empty. |
| SilenceDetection.Energy | app/scripts/analyze/duration_analyze.py:20 | The energy of a window, a sum of squares, is never negative. |
| SilenceDetection.DefaultMinimumInSamples | app/scripts/analyze/duration_analyze.py:8 | With the default minimum of 5 s, a run is reported exactly when its frames hold at least five seconds of samples: `count * 512 >= 5 * sr`. |
| SilenceDetection.RunEnd | app/scripts/analyze/duration_analyze.py:37-52 | The end of a run starting at frame i is the first loud frame at or after i, or the frame count: every frame before it is silent. |
| SilenceDetection.GroupFrame | app/scripts/analyze/duration_analyze.py:38-52 | One step of the grouping loop keeps its invariant. A run is open exactly when a start is set; the start is the time of the run's first frame; the running duration is the run's length times one hop; the sections so far followed by the runs still pending are everything reported. |
| SilenceDetection.GroupSilentFrames | app/scripts/analyze/duration_analyze.py:33-57 | The sections the loop and the trailing check report are exactly the qualifying maximal runs of silent frames, in order (`Detect`). |
| SilenceDetection.DetectSilentSections | app/scripts/analyze/duration_analyze.py:8-61 | On a loaded waveform the function returns `SilentSections`: the flags of the windows' dB energies, grouped by `Detect`. |
| SilenceDetection.RunsFromAreMaximalRuns | app/scripts/analyze/duration_analyze.py:37-52 | The runs the pass finds are maximal runs of silent frames, in increasing order with a loud frame between any two, and a frame lies in one of them exactly when it is silent. |
| SilenceDetection.MaximalRunsOverlapEqual | app/scripts/analyze/duration_analyze.py:39-52 | Two maximal silent runs that share a frame are the same run. |
| SilenceDetection.EmittedFromQualifyingRuns | app/scripts/analyze/duration_analyze.py:44-48 | Every reported section comes from a run whose running duration reaches the minimum, and every such run is reported. |
| SilenceDetection.SectionsAreQualifyingMaximalRuns | app/scripts/analyze/duration_analyze.py:37-57 | A section is reported exactly for each maximal run of silent frames whose running duration reaches the minimum, spanning from its first frame's time to its end. |
| SilenceDetection.IntervalSpan | app/scripts/analyze/duration_analyze.py:47 | A run closed by a loud frame spans exactly its running duration. A run that reaches the last frame spans at most that duration and less than one hop below it. |
| SilenceDetection.SectionsOrderedAndDisjoint | app/scripts/analyze/duration_analyze.py:37-57 | Reported sections start before they end, come in increasing time order, and each ends strictly before the next one starts. |
| SilenceDetection.SectionDurations | app/scripts/analyze/duration_analyze.py:46-57 | Every section but the last spans at least the minimum duration. The last falls short of it by less than one hop at most. |
| SilenceDetection.NoSilentFrameNoSections | app/scripts/analyze/duration_analyze.py:37-57 | With no silent frame nothing is reported. |
| SilenceDetection.AllSilentGivesWholeWaveform | app/scripts/analyze/duration_analyze.py:37-57 | With every frame silent the result is `[[0, len(y) / sr]]` when the frames' running duration reaches the minimum, and empty otherwise. |
| SilenceDetection.NothingBelowThresholdNoSections | app/scripts/analyze/duration_analyze.py:29 | A window whose dB energy equals the threshold is not silent. When no window is strictly below the threshold, nothing is reported. |
| SilenceDetection.AllBelowThresholdWholeWaveform | app/scripts/analyze/duration_analyze.py:19-57 | A non-empty waveform whose every window is below the threshold gives one section covering the whole waveform when long enough, and nothing otherwise. |
| SilenceDetectionLegacy.DetectSilentSections | app/scripts/analize/duration_analyze.py:5-63 | The older copy, debug loop included, returns exactly what the current `SilentSections` specifies. So its result depends only on the waveform and the parameters. |
| SoroRecords.SelectRowsToInsert | app/scripts/analyze/duration_analyze.py:86-99 | The nested duplicate loop inserts exactly the rows `NewRows` specifies. |
| SoroRecords.NewRowsSpec | app/scripts/analyze/duration_analyze.py:86-99 | A row is inserted for a section exactly when it hits no stored section. Every inserted row is for one of the sections, with `is_guitar_soro = False` and no score. There are never more rows than sections. |
| SoroRecords.NewRowsAppend | app/scripts/analyze/duration_analyze.py:79-99 | Sections are judged independently, in order: the rows for two lists of sections are the rows for each, one after the other. |
| SoroRecords.HitsIffBoundInside | app/scripts/analyze/duration_analyze.py:91-93 | For a stored section whose start is not after its end, a section hits it exactly when one of its bounds lies inside it, bounds included. |
| SoroRecords.EnclosingIsNotHit | app/scripts/analyze/duration_analyze.py:91-93 | A section that strictly encloses a stored one does not hit it. |
| SoroRecords.RepeatedSectionInsertedTwice | app/scripts/analyze/duration_analyze.py:79 | The stored sections are fetched once, so two identical new sections that hit nothing stored are both inserted. |
| SoroRecords.ExtractSongIdRoundTrip | app/scripts/analyze/duration_analyze.py:110-121 | A folder named `<id>_<title>` yields `<id>`, for any integer id of at most 4300 digits and any title; a longer id gives None. |
| Segmenting.ChunksConcat | app/scripts/analyze/yamnet_guitar_detection.py:31-34 | The segments of a positive segment size, laid end to end, give the waveform back. |
| Segmenting.ChunkAt | app/scripts/analyze/is_guitar_analyze_duration.py:87 | Segment k starts at `k * s`, inside the waveform, and runs to `k * s + s` or the end of the waveform. |
| Segmenting.ChunkCount | app/scripts/analyze/is_guitar_analyze_duration.py:87 | There are `ceil(len / s)` segments, and none exactly when the waveform is empty. |
| Segmenting.ChunkSize | app/scripts/analyze/is_guitar_analyze_duration.py:87 | Every segment but the last holds exactly `s` samples, and the last holds between 1 and `s`. |
| Segmenting.SegmentAudioPartition | app/scripts/analyze/is_guitar_analyze_duration.py:84-87 | `segment_audio` raises ValueError exactly when `int(segment_duration * sr)` is 0. For a positive size the segments cover the waveform; for a negative one there are none. |
| GuitarScores.MaxScore | app/scripts/analyze/is_guitar_analyze_duration.py:237 | `max` of a non-empty list is one of its scores, and no score is larger. |
| GuitarScores.DecideDetectsIffSomeScoreAbove | app/scripts/analyze/is_guitar_analyze_duration.py:237-238 | The decision raises ValueError exactly for an empty list. Otherwise guitar is detected exactly when some score is strictly above 0.5, and the reported score is the maximum. |
| GuitarScores.ThresholdIsStrict | app/scripts/analyze/yamnet_guitar_detection.py:82-83 | Scores that are all at most 0.5, including one exactly 0.5, detect no guitar. |
| GuitarDetection.DetectGuitarInSegments | app/scripts/analyze/is_guitar_analyze_duration.py:89-103 | It returns `SegmentScores`. It fails, with ValueError, exactly when segmenting does. Otherwise it gives one score per segment, in segment order: the inferred score, or 0 where inference raised. |
| GuitarDetection.AllInferenceFailedNotDetected | app/scripts/analyze/is_guitar_analyze_duration.py:94-102 | When YAMNet raises on every segment of a range that has at least one segment, the segment scores are all 0. The decision on them is then "no guitar", with a maximum score of 0. |
| GuitarDetection.ExtractSongIdRoundTrip | app/scripts/analyze/is_guitar_analyze_duration.py:117-130 | A file in `<dir>/<id>__<title>/` yields `<id>`, whatever the directory, title and file name, when the id has at most 4300 digits; a longer id gives ValueError. |
| GuitarDetection.ExtractSongIdExample | app/scripts/analyze/is_guitar_analyze_duration.py:120 | The documented layout `.../6__光の中へ/guitar.wav` gives song 6. |
| GuitarDetection.ExtractSongIdRejectsNonNumeral | app/scripts/analyze/is_guitar_analyze_duration.py:131-133 | A containing folder whose name starts with a character that is not a digit, ASCII white space, '+' or '-' gives ValueError. |
| GuitarDetection.UpdateIntervals | app/scripts/analyze/is_guitar_analyze_duration.py:224-245 | The loop over one song's intervals produces exactly the updates `UpdatesFrom` specifies. |
| GuitarDetection.UpdatesStopAtFirstFailure | app/scripts/analyze/is_guitar_analyze_duration.py:224-248 | Updates are made for a prefix of the intervals, one per interval, in order. Each carries its interval's id and the decision and maximum score of that interval's scores in this file. They stop exactly at the first interval whose scoring or `max` raises. |
| GuitarDetection.ProcessAudioFile | app/scripts/analyze/is_guitar_analyze_duration.py:215-248 | One file's updates are `FileUpdates`: none when the song id or its intervals cannot be read, otherwise the per-interval updates, scored on that file's audio. |
| GuitarDetection.ProcessAudioFiles | app/scripts/analyze/is_guitar_analyze_duration.py:214-248 | The loop over the found files concatenates each file's updates, in file order. |
| GuitarDetection.AllUpdatesSplit | app/scripts/analyze/is_guitar_analyze_duration.py:247-248 | Files are processed independently: the updates of two lists of files are those of each, one after the other, so a failing file changes nothing for the others. |
| YamnetDetection.DetectGuitarInSegments | app/scripts/analyze/yamnet_guitar_detection.py:36-54 | It succeeds exactly when segmenting and every segment's inference do. It then gives one score per segment, in segment order; otherwise it raises the error of segmenting or of the first failing segment. |
| DominantPitch.LoudestIsFirstArgmax | app/scripts/analize/is_guitar_analyze.py:29-38 | A bin is chosen exactly when some bin is strong. The chosen bin is strong and of maximal magnitude among the strong bins, and every earlier strong bin is strictly weaker (the first one wins a tie, as `np.argmax` does). |
| DominantPitch.AnalyzeDominantPitch | app/scripts/analize/is_guitar_analyze.py:19-45 | The column loop returns exactly the dominant pitches `DominantPitches` specifies. |
| DominantPitch.DominantOfSpec | app/scripts/analize/is_guitar_analyze.py:29-39 | A column yields a pitch exactly when some bin has magnitude strictly above the threshold and frequency in the range, bounds included. The pitch is that of a strong bin of maximal magnitude. |
| DominantPitch.DominantPitchesBounds | app/scripts/analize/is_guitar_analyze.py:24-39 | There are at most as many pitches as columns, and every pitch lies in the frequency range. |
| DominantPitch.DominantPitchesAppend | app/scripts/analize/is_guitar_analyze.py:24-39 | Columns are judged one by one: the pitches of two runs of columns follow each other in column order. |
| PlayingStyle.CountSubFrame | app/scripts/analize/is_guitar_analyze.py:70-81 | One pass of the sub-frame loop gives the dominant-pitch count of sub-frame i, or the error tracking raised. |
| PlayingStyle.CountDominantPitches | app/scripts/analize/is_guitar_analyze.py:66-83 | A frame count of 0 or less runs no sub-frame. Otherwise the loop sums the counts of sub-frames 0 .. num_frames - 1 (`PitchCount`) and, when it completes, has counted num_frames frames. |
| PlayingStyle.ClassifyOne | app/scripts/analize/is_guitar_analyze.py:58-93 | One pass of the interval loop gives the result `ClassifySpan` specifies for that interval. |
| PlayingStyle.DetectGuitarPlayingStyle | app/scripts/analize/is_guitar_analyze.py:47-98 | The whole classifier returns `ClassifyAll` for the frame length `int(frame_duration * sr)`. |
| PlayingStyle.PitchCountErrPropagates | app/scripts/analize/is_guitar_analyze.py:69-83 | Once a sub-frame's tracking fails, the whole count fails with that error. |
| PlayingStyle.ClassifyAllErrPropagates | app/scripts/analize/is_guitar_analyze.py:100-102 | Once an interval fails, the whole call fails with that error. |
| PlayingStyle.LabelIsAverageAtMostTwo | app/scripts/analize/is_guitar_analyze.py:86-93 | An interval is single-note playing exactly when its dominant pitches number at most twice its frame count. |
| PlayingStyle.DefaultFrameLength | app/scripts/analize/is_guitar_analyze.py:47-56 | The default sub-frame of 0.1 s holds `sr // 10` samples. |
| PlayingStyle.SubFramesAreChunks | app/scripts/analize/is_guitar_analyze.py:65-72 | For a positive frame length, `num_frames` is `len // fl + 1`. The sub-frames are the fixed-size segments of the section followed by one more, possibly empty, sub-frame. |
| PlayingStyle.SubFrameIsChunk | app/scripts/analize/is_guitar_analyze.py:70-72 | A sub-frame that starts inside the section is the fixed-size segment with the same index. |
| PlayingStyle.LastSubFrameIsEmpty | app/scripts/analize/is_guitar_analyze.py:65-72 | When the frame length divides the section evenly, the last sub-frame is empty. |
| PlayingStyle.SubFramesCover | app/scripts/analize/is_guitar_analyze.py:65-72 | There is at least one sub-frame, and the sub-frames laid end to end give the section back. |
| PlayingStyle.SubFrameSize | app/scripts/analize/is_guitar_analyze.py:70-72 | Every sub-frame but the last holds `frame_length` samples, and the last holds `len mod frame_length`. |
| PlayingStyle.SubFrameBounds | app/scripts/analize/is_guitar_analyze.py:70-71 | Sub-frame i lies within the section, and its bounds are `fl` apart except for the last, whose bounds are `len mod fl` apart. |
| PlayingStyle.ReversedSpanIsEmpty | app/scripts/analize/is_guitar_analyze.py:60-62 | An interval whose end is not after its start, both non-negative, cuts an empty section and raises nothing. |
| PlayingStyle.SampleOffsetsOrdered | app/scripts/analize/is_guitar_analyze.py:60-61 | Truncated sample offsets keep the order of non-negative times. |
| PlayingStyle.EmptySectionIsOneEmptySubFrame | app/scripts/analize/is_guitar_analyze.py:65-72 | An empty section has exactly one sub-frame, and it is empty. |
| PlayingStyle.NonPositiveFrameLengthFails | app/scripts/analize/is_guitar_analyze.py:65-86 | With a frame length of 0 or less, every non-empty section raises ZeroDivisionError: `//` divides by zero, or no sub-frame is counted and the average divides by zero. |
| PlayingStyle.ClassifyAllSucceedsIff | app/scripts/analize/is_guitar_analyze.py:58-102 | Classification succeeds exactly when every interval's classification does. |
| PlayingStyle.ClassifySpanKeepsBounds | app/scripts/analize/is_guitar_analyze.py:91-93 | A classified interval carries its own start and end unchanged. |
| PlayingStyle.ClassifyAllResults | app/scripts/analize/is_guitar_analyze.py:58-98 | A successful classification yields exactly one result per interval, in interval order, each being that interval's classification. |

## Left out

- Audio loading (`librosa.load`, resampling, time offsets) is out. The model starts from an
  already loaded waveform, or from the scores of a loaded interval (`scoresOf`).
- Floating point is out. Times, durations, the running sum `hop / sr`, `frame_duration * sr`, the
  average pitch count and the scores are exact reals. The float rounding of the running duration
  can make Python's `>=` against the minimum differ from the exact comparison.
- `10 * log10(energy + 1e-6)` is the parameter `toDb`. `librosa.effects.hpss` with
  `librosa.piptrack` is the parameter `track`. YAMNet inference, with the gathering and summing
  of the guitar classes, is `infer`. None of them is modelled inside.
- Loading and caching the YAMNet model and reading its class map happen at import time and are
  not modelled. A missing guitar class aborts the script before any analysis.
- Database access is not modelled: connecting, fetching stored sections and intervals, INSERT,
  UPDATE, commit and close. Stored sections are an input. Inserted rows and updated rows are
  outputs. An exception raised by an UPDATE, which would also end a file's loop, is not modelled.
- Building `all_segment_scores` and all plotting are not modelled, because they only feed the
  charts (`visualize_combined_scores`, `plot_confidence_distribution`).
- The filesystem walk of `main` (`os.walk`, `os.path.isfile`, the date-stamped base directory)
  is not modelled. The list of found `guitar.wav` paths is an input.
- `process_all_vocal_files` is not modelled: its `os.listdir` walk of the date-stamped folder,
  the `vocals.wav` existence check, the skip of a folder whose `extract_song_id` returns None and
  the per-folder exception handler. Its parts are: silence detection (`DetectSilentSections`),
  the folder-name song id (`SoroRecords.ExtractSongId`) and the duplicate filter
  (`SelectRowsToInsert`).
- Printing and logging are not modelled.
- The unused `sr` and `hnr_threshold` parameters have no counterpart.
- PyText.ParseInt: the white space skipped around a numeral is the ASCII set `int()` skips, tab to
  carriage return and space. The separators U+1C..U+1F are not skipped, as in `int()`. Python's
  `int()` also accepts non-ASCII decimal digits and non-ASCII white space; the model does not.
  The digit limit is the default 4300 of Python 3.11 and later (underscores do not count); a
  limit changed with `sys.set_int_max_str_digits`, or an interpreter without the limit, is not
  modelled.
- GuitarDetection.ProcessAudioFiles: `scoresOf(path, interval)` stands for `load_audio` of that
  file's time range followed by `detect_guitar_in_segments`. It is a parameter, so the model
  does not tie it to `DetectGuitarInSegments`; the audio loading it includes is not modelled.
- PyText.DirName: only POSIX paths are modelled.
- SoroRecords.HitsIffBoundInside: requires that the stored section's start is not after its
  end. For a reversed stored section, only the exact-equality clause can match.

=== FILE: guitar_detection.dfy ===
/**
 * `is_guitar_analyze_duration`: the per-segment YAMNet scores of one time range of a guitar stem,
 * with a score of 0 for a segment whose inference fails; the song id taken from the directory that
 * holds the file; and the per-file loop of `main` that turns each stored interval into a
 * detection and a score written back to its row.
 *
 * YAMNet inference (including summing the guitar-related classes and taking the maximum over
 * its frames) is the parameter `infer`; loading the audio, reading and updating rows are
 * parameters too.
 */
module GuitarDetection {
  import opened Py
  import opened PyText
  import opened Segmenting
  import opened GuitarScores

  /** The score kept for one segment: the inferred score, or 0 when inference raised. */
  function ScoreOrZero(inferred: Result<real>): real
  {
    if inferred.Ok? then inferred.value else 0.0
  }

  /** The scores of the segments of a waveform, in segment order, or the error of segmenting. */
  function SegmentScores(waveform: seq<real>, segmentDuration: real, sr: nat,
                         infer: seq<real> -> Result<real>): Result<seq<real>>
  {
    match SegmentAudio(waveform, segmentDuration, sr)
    case Err(e) => Err(e)
    case Ok(segments) => Ok(seq(|segments|, k requires 0 <= k < |segments| => ScoreOrZero(infer(segments[k]))))
  }

  /** `detect_guitar_in_segments` on an already loaded waveform: one score per segment, in
      segment order; only `segment_audio` itself can fail. */
  method DetectGuitarInSegments(waveform: seq<real>, segmentDuration: real, sr: nat,
                                infer: seq<real> -> Result<real>)
    returns (result: Result<seq<real>>)
    ensures result == SegmentScores(waveform, segmentDuration, sr, infer)
    ensures result.Err? <==> SegmentAudio(waveform, segmentDuration, sr).Err?
    ensures result.Err? ==> result.error == ValueError
    ensures result.Ok? ==>
      var segments := SegmentAudio(waveform, segmentDuration, sr).value;
      && |result.value| == |segments|
      && forall k :: 0 <= k < |segments| ==> result.value[k] == ScoreOrZero(infer(segments[k]))
  {
    var segmented := SegmentAudio(waveform, segmentDuration, sr);
    if segmented.Err? {
      return Err(segmented.error);
    }
    var segments := segmented.value;
    var segmentScores: seq<real> := [];
    for k := 0 to |segments|
      invariant |segmentScores| == k
      invariant forall j :: 0 <= j < k ==> segmentScores[j] == ScoreOrZero(infer(segments[j]))
    {
      var inferred := infer(segments[k]);
      if inferred.Ok? {
        segmentScores := segmentScores + [inferred.value];
      } else {
        segmentScores := segmentScores + [0.0];
      }
    }
    assert segmentScores == seq(|segments|, k requires 0 <= k < |segments| => ScoreOrZero(infer(segments[k])));
    return Ok(segmentScores);
  }

  /** When YAMNet fails on every segment of a non-empty range, each segment scores 0 and guitar
      is not detected, with a maximum score of 0. */
  lemma AllInferenceFailedNotDetected(waveform: seq<real>, segmentDuration: real, sr: nat,
                                      infer: seq<real> -> Result<real>)
    requires SegmentAudio(waveform, segmentDuration, sr).Ok? && |SegmentAudio(waveform, segmentDuration, sr).value| > 0
    requires forall k :: 0 <= k < |SegmentAudio(waveform, segmentDuration, sr).value| ==>
               infer(SegmentAudio(waveform, segmentDuration, sr).value[k]).Err?
    ensures SegmentScores(waveform, segmentDuration, sr, infer).Ok?
    ensures forall k :: 0 <= k < |SegmentScores(waveform, segmentDuration, sr, infer).value| ==>
              SegmentScores(waveform, segmentDuration, sr, infer).value[k] == 0.0
    ensures Decide(SegmentScores(waveform, segmentDuration, sr, infer).value) == Ok(Decision(false, 0.0))
  {
    var scores := SegmentScores(waveform, segmentDuration, sr, infer).value;
    assert forall k :: 0 <= k < |scores| ==> scores[k] == 0.0;
    DecideDetectsIffSomeScoreAbove(scores);
  }

  /** `extract_song_id(file_path)`: the text before the first "__" in the name of the directory
      that holds the file, as an integer; ValueError when it is not a numeral. */
  function ExtractSongId(filePath: string): Result<int>
  {
    var folderName := BaseName(DirName(filePath));
    match ParseInt(BeforeFirst(folderName, "__"))
    case None => Err(ValueError)
    case Some(songId) => Ok(songId)
  }

  lemma ShowIntHasNoSeparators(i: int)
    ensures |ShowInt(i)| > 0
    ensures forall k :: 0 <= k < |ShowInt(i)| ==> ShowInt(i)[k] != '/' && ShowInt(i)[k] != '_'
  {
    var digits := ShowNat(if i < 0 then -i else i);
    if i < 0 {
      assert forall k :: 1 <= k < |ShowInt(i)| ==> ShowInt(i)[k] == digits[k - 1];
    }
  }

  /** A file in `<dir>/<id>__<title>/` yields `<id>`, whatever the title and the file name, or
      ValueError when the id has more digits than `int()` accepts. */
  lemma ExtractSongIdRoundTrip(dir: string, songId: int, title: string, file: string)
    requires NoSlash(title) && NoSlash(file)
    ensures ExtractSongId(dir + "/" + ShowInt(songId) + "__" + title + "/" + file) ==
              if WithinDigitLimit(songId) then Ok(songId) else Err(ValueError)
  {
    var folder := ShowInt(songId) + "__" + title;
    ShowIntHasNoSeparators(songId);
    assert NoSlash(folder) by {
      forall k | 0 <= k < |folder| ensures folder[k] != '/' {
        if k >= |ShowInt(songId)| + 2 {
          assert folder[k] == title[k - |ShowInt(songId)| - 2];
        }
      }
    }
    assert dir + "/" + ShowInt(songId) + "__" + title + "/" + file == dir + "/" + folder + "/" + file;
    BaseNameOfDirName(dir, folder, file);
    BeforeFirstOfJoin(ShowInt(songId), "__", title);
    ParseShowRoundTrip(songId);
  }

  /** The layout the source documents: `.../6__光の中へ/guitar.wav` gives song 6. */
  lemma ExtractSongIdExample()
    ensures ExtractSongId("htdemucs_6s" + "/" + "6" + "__" + "光の中へ" + "/" + "guitar.wav") == Ok(6)
  {
    assert ShowInt(6) == "6";
    assert WithinDigitLimit(6);
    ExtractSongIdRoundTrip("htdemucs_6s", 6, "光の中へ", "guitar.wav");
  }

  /** A folder name that does not start with a numeral gives ValueError. */
  lemma ExtractSongIdRejectsNonNumeral(dir: string, title: string, file: string)
    requires NoSlash(title) && NoSlash(file) && |title| > 0 && !IsDigit(title[0]) && !IsSpace(title[0])
    requires title[0] != '+' && title[0] != '-'
    ensures ExtractSongId(dir + "/" + title + "/" + file) == Err(ValueError)
  {
    BaseNameOfDirName(dir, title, file);
    var prefix := BeforeFirst(title, "__");
    NoNumeralPrefix(prefix);
  }

  lemma NoNumeralPrefix(s: string)
    requires |s| > 0 ==> !IsDigit(s[0]) && !IsSpace(s[0]) && s[0] != '+' && s[0] != '-'
    ensures ParseInt(s) == None
  {
    if |s| > 0 {
      assert TrimStart(s) == s;
      var t := Strip(s);
      if |t| > 0 {
        assert t[0] == s[0];
        assert !IsDigitString(t);
      }
    }
  }

  // ---------------------------------------------------------------------------------------------
  // The per-file loop of `main`
  // ---------------------------------------------------------------------------------------------

  /** A stored interval of a song: `(soro_id, start_time, end_time)`. */
  datatype StoredInterval = StoredInterval(soroId: int, start: real, end: real)

  /** What `update_soro_record` writes: `is_guitar_soro` and `guitar_score` of one row. */
  datatype SoroUpdate = SoroUpdate(soroId: int, isGuitarSoro: bool, guitarScore: real)

  /** The rows updated for a file's intervals, in order; `scoresOf(filePath, interval)` scores
      the interval's time range of that file. The first interval whose scoring raises (loading,
      segmenting, or `max` of no scores) ends the file: the rest is skipped. */
  function UpdatesFrom(filePath: string, intervals: seq<StoredInterval>, scoresOf: (string, StoredInterval) -> Result<seq<real>>): seq<SoroUpdate>
  {
    if intervals == [] then []
    else
      var scores := scoresOf(filePath, intervals[0]);
      if scores.Err? then []
      else
        var decision := Decide(scores.value);
        if decision.Err? then []
        else [SoroUpdate(intervals[0].soroId, decision.value.isGuitar, decision.value.maxScore)]
             + UpdatesFrom(filePath, intervals[1..], scoresOf)
  }

  /** Updates are made for a prefix of the intervals, one per interval and in their order, each
      carrying the decision on that interval's scores; they stop exactly at the first interval
      whose scoring or decision fails. */
  lemma {:induction false} UpdatesStopAtFirstFailure(filePath: string, intervals: seq<StoredInterval>, scoresOf: (string, StoredInterval) -> Result<seq<real>>)
    ensures var updates := UpdatesFrom(filePath, intervals, scoresOf);
      && |updates| <= |intervals|
      && (forall k :: 0 <= k < |updates| ==>
            && updates[k].soroId == intervals[k].soroId
            && scoresOf(filePath, intervals[k]).Ok?
            && Decide(scoresOf(filePath, intervals[k]).value) == Ok(Decision(updates[k].isGuitarSoro, updates[k].guitarScore)))
      && (|updates| < |intervals| ==>
            scoresOf(filePath, intervals[|updates|]).Err? || Decide(scoresOf(filePath, intervals[|updates|]).value).Err?)
  {
    if intervals != [] {
      var scores := scoresOf(filePath, intervals[0]);
      if scores.Ok? && Decide(scores.value).Ok? {
        var rest := intervals[1..];
        UpdatesStopAtFirstFailure(filePath, rest, scoresOf);
        var updates := UpdatesFrom(filePath, intervals, scoresOf);
        assert forall k :: 1 <= k < |intervals| ==> intervals[k] == rest[k - 1];
        assert forall k :: 1 <= k < |updates| ==> updates[k] == UpdatesFrom(filePath, rest, scoresOf)[k - 1];
      }
    }
  }

  /** The rows `main` updates for one `guitar.wav`: nothing when the song id cannot be extracted
      or its intervals cannot be read. */
  function FileUpdates(filePath: string, intervalsOf: int -> Result<seq<StoredInterval>>,
                       scoresOf: (string, StoredInterval) -> Result<seq<real>>): seq<SoroUpdate>
  {
    match ExtractSongId(filePath)
    case Err(_) => []
    case Ok(songId) =>
      match intervalsOf(songId)
      case Err(_) => []
      case Ok(intervals) => UpdatesFrom(filePath, intervals, scoresOf)
  }

  /** The body of `main`'s loop for one file, inside its `try`. */
  method ProcessAudioFile(filePath: string, intervalsOf: int -> Result<seq<StoredInterval>>,
                          scoresOf: (string, StoredInterval) -> Result<seq<real>>)
    returns (updates: seq<SoroUpdate>)
    ensures updates == FileUpdates(filePath, intervalsOf, scoresOf)
  {
    updates := [];
    var songId := ExtractSongId(filePath);
    if songId.Ok? {
      var fetched := intervalsOf(songId.value);
      if fetched.Ok? {
        updates := UpdateIntervals(filePath, fetched.value, scoresOf);
      }
    }
  }

  /** The loop over one song's intervals: score, decide and record each one, stopping at the
      first interval whose scoring or decision raises. */
  method UpdateIntervals(filePath: string, intervals: seq<StoredInterval>, scoresOf: (string, StoredInterval) -> Result<seq<real>>)
    returns (updates: seq<SoroUpdate>)
    ensures updates == UpdatesFrom(filePath, intervals, scoresOf)
  {
    updates := [];
    var k := 0;
    while k < |intervals|
      invariant 0 <= k <= |intervals|
      invariant updates + UpdatesFrom(filePath, intervals[k..], scoresOf) == UpdatesFrom(filePath, intervals, scoresOf)
    {
      assert intervals[k..][0] == intervals[k] && intervals[k..][1..] == intervals[k + 1..];
      var segmentScores := scoresOf(filePath, intervals[k]);
      if segmentScores.Err? {
        break;
      }
      var decision := Decide(segmentScores.value);
      if decision.Err? {
        break;
      }
      updates := updates + [SoroUpdate(intervals[k].soroId, decision.value.isGuitar, decision.value.maxScore)];
      k := k + 1;
    }
    if k == |intervals| {
      assert intervals[k..] == [];
    }
  }

  /** All rows `main` updates, file after file: `perFile` gives the rows updated for one file,
      an exception being caught per file. */
  function AllUpdates(files: seq<string>, perFile: string -> seq<SoroUpdate>): seq<SoroUpdate>
  {
    if files == [] then [] else AllUpdates(files[..|files| - 1], perFile) + perFile(files[|files| - 1])
  }

  /** `main`'s loop over the `guitar.wav` files it found. */
  method ProcessAudioFiles(files: seq<string>, intervalsOf: int -> Result<seq<StoredInterval>>,
                           scoresOf: (string, StoredInterval) -> Result<seq<real>>)
    returns (updates: seq<SoroUpdate>)
    ensures updates == AllUpdates(files, path => FileUpdates(path, intervalsOf, scoresOf))
  {
    updates := [];
    for k := 0 to |files|
      invariant updates == AllUpdates(files[..k], path => FileUpdates(path, intervalsOf, scoresOf))
    {
      var fileUpdates := ProcessAudioFile(files[k], intervalsOf, scoresOf);
      ghost var perFile := path => FileUpdates(path, intervalsOf, scoresOf);
      assert perFile(files[k]) == fileUpdates;
      assert files[..k + 1][..k] == files[..k] && files[..k + 1][k] == files[k];
      assert AllUpdates(files[..k + 1], perFile) == AllUpdates(files[..k], perFile) + perFile(files[k]);
      updates := updates + fileUpdates;
    }
    assert files[..|files|] == files;
  }

  /** Files are processed independently: a file that fails changes nothing for the others. */
  lemma {:induction false} AllUpdatesSplit(a: seq<string>, b: seq<string>, perFile: string -> seq<SoroUpdate>)
    ensures AllUpdates(a + b, perFile) == AllUpdates(a, perFile) + AllUpdates(b, perFile)
    decreases |b|
  {
    if b == [] {
      assert a + b == a;
    } else {
      var b' := b[..|b| - 1];
      assert (a + b)[..|a + b| - 1] == a + b';
      assert (a + b)[|a + b| - 1] == b[|b| - 1];
      AllUpdatesSplit(a, b', perFile);
    }
  }
}

=== FILE: pitch.dfy ===
/**
 * `analyze_dominant_pitch`: for every column (time frame) of a pitch-tracking result, the bins
 * whose magnitude is strictly above a confidence threshold and whose frequency lies in a range
 * (bounds included) are the strong ones, and the frequency of the strongest of them, the first
 * one on a tie, is that column's dominant pitch. A column with no strong bin contributes nothing.
 */
module DominantPitch {
  import opened Py

  /** One bin of a column: the `pitches[f, t]` and `magnitudes[f, t]` of the same f and t. */
  datatype Bin = Bin(freq: real, mag: real)

  const DefaultLowFrequency: real := 80.0
  const DefaultHighFrequency: real := 1500.0

  predicate Strong(b: Bin, threshold: real, lo: real, hi: real)
  {
    b.mag > threshold && b.freq >= lo && b.freq <= hi
  }

  /** `np.argmax` over the strong bins of a column, as an index into the column, or None when no
      bin is strong; `LoudestIsFirstArgmax` states which bin it picks. */
  function Loudest(column: seq<Bin>, threshold: real, lo: real, hi: real): (r: Option<nat>)
    ensures r.Some? ==> r.value < |column|
  {
    if |column| == 0 then None
    else
      var n := |column| - 1;
      var prev := Loudest(column[..n], threshold, lo, hi);
      if !Strong(column[n], threshold, lo, hi) then prev
      else if prev.None? || column[n].mag > column[prev.value].mag then Some(n)
      else prev
  }

  /** `Loudest` finds a bin exactly when some bin is strong, and then the first strong bin of
      largest magnitude. */
  lemma {:induction false} LoudestIsFirstArgmax(column: seq<Bin>, threshold: real, lo: real, hi: real)
    ensures var r := Loudest(column, threshold, lo, hi);
      && (r.None? <==> forall j :: 0 <= j < |column| ==> !Strong(column[j], threshold, lo, hi))
      && (r.Some? ==>
        && Strong(column[r.value], threshold, lo, hi)
        && (forall j :: 0 <= j < |column| && Strong(column[j], threshold, lo, hi) ==> column[j].mag <= column[r.value].mag)
        && (forall j :: 0 <= j < r.value && Strong(column[j], threshold, lo, hi) ==> column[j].mag < column[r.value].mag))
  {
    if |column| > 0 {
      var n := |column| - 1;
      LoudestIsFirstArgmax(column[..n], threshold, lo, hi);
      assert forall j :: 0 <= j < n ==> column[..n][j] == column[j];
    }
  }

  /** The dominant pitch of one column, if any. */
  function DominantOf(column: seq<Bin>, threshold: real, lo: real, hi: real): Option<real>
  {
    match Loudest(column, threshold, lo, hi)
    case None => None
    case Some(i) => Some(column[i].freq)
  }

  /** The dominant pitches of the columns, in column order. */
  function DominantPitches(columns: seq<seq<Bin>>, threshold: real, lo: real, hi: real): seq<real>
  {
    if columns == [] then []
    else
      var n := |columns| - 1;
      DominantPitches(columns[..n], threshold, lo, hi)
      + match DominantOf(columns[n], threshold, lo, hi) { case None => [] case Some(p) => [p] }
  }

  /** `analyze_dominant_pitch(pitches, magnitudes, sr, threshold, (lo, hi))` without the plot. */
  method AnalyzeDominantPitch(columns: seq<seq<Bin>>, threshold: real, lo: real, hi: real)
    returns (dominantPitches: seq<real>)
    ensures dominantPitches == DominantPitches(columns, threshold, lo, hi)
  {
    dominantPitches := [];
    for t := 0 to |columns|
      invariant dominantPitches == DominantPitches(columns[..t], threshold, lo, hi)
    {
      assert columns[..t + 1][..t] == columns[..t];
      var maxIndex := Loudest(columns[t], threshold, lo, hi);
      if maxIndex.Some? {
        dominantPitches := dominantPitches + [columns[t][maxIndex.value].freq];
      }
    }
    assert columns[..|columns|] == columns;
  }

  /** Each column contributes at most one pitch, and every pitch is the frequency of a strong bin,
      so it lies within the range. */
  lemma {:induction false} DominantPitchesBounds(columns: seq<seq<Bin>>, threshold: real, lo: real, hi: real)
    ensures |DominantPitches(columns, threshold, lo, hi)| <= |columns|
    ensures forall p :: p in DominantPitches(columns, threshold, lo, hi) ==> lo <= p <= hi
  {
    if columns != [] {
      DominantPitchesBounds(columns[..|columns| - 1], threshold, lo, hi);
      LoudestIsFirstArgmax(columns[|columns| - 1], threshold, lo, hi);
    }
  }

  /** Columns are judged one by one: the pitches of two runs of columns follow each other. */
  lemma {:induction false} DominantPitchesAppend(a: seq<seq<Bin>>, b: seq<seq<Bin>>, threshold: real, lo: real, hi: real)
    ensures DominantPitches(a + b, threshold, lo, hi)
      == DominantPitches(a, threshold, lo, hi) + DominantPitches(b, threshold, lo, hi)
    decreases |b|
  {
    if b == [] {
      assert a + b == a;
    } else {
      var b' := b[..|b| - 1];
      assert (a + b)[..|a + b| - 1] == a + b';
      assert (a + b)[|a + b| - 1] == b[|b| - 1];
      DominantPitchesAppend(a, b', threshold, lo, hi);
    }
  }

  /** A column yields a pitch exactly when it has a strong bin; a magnitude equal to the threshold
      or a frequency outside the range does not count. */
  lemma DominantOfSpec(column: seq<Bin>, threshold: real, lo: real, hi: real)
    ensures DominantOf(column, threshold, lo, hi).Some? <==>
      exists j :: 0 <= j < |column| && column[j].mag > threshold && lo <= column[j].freq <= hi
    ensures DominantOf(column, threshold, lo, hi).Some? ==>
      exists j :: 0 <= j < |column| && Strong(column[j], threshold, lo, hi)
        && DominantOf(column, threshold, lo, hi).value == column[j].freq
        && forall i :: 0 <= i < |column| && Strong(column[i], threshold, lo, hi) ==> column[i].mag <= column[j].mag
  {
    var r := Loudest(column, threshold, lo, hi);
    LoudestIsFirstArgmax(column, threshold, lo, hi);
    if r.None? {
      assert forall j :: 0 <= j < |column| ==> !Strong(column[j], threshold, lo, hi);
    }
  }
}

=== FILE: py.dfy ===
/**
 * The few pieces of Python semantics the analysis scripts rely on:
 * exceptions as a Result, `int(x)` on a float, sequence slicing `s[i:j]`
 * with its clipping rules, and floor division `a // b`.
 */
module Py {

  datatype Option<+T> = None | Some(value: T)

  /** The exceptions the modelled code can raise or catch. */
  datatype Error =
    | ValueError          // int() of a non-numeral, range() with step 0, max() of an empty list
    | ZeroDivisionError   // `//` or `/` by zero
    | ForeignCallFailed   // any exception raised inside a library call (librosa, YAMNet, file loading)

  datatype Result<+T> = Ok(value: T) | Err(error: Error)

  function Min(a: int, b: int): int { if a <= b then a else b }

  /** `t * n` for a time `t` in seconds and a whole number `n` (a sample rate), written as
      repeated addition so that proofs about it need no nonlinear arithmetic from the solver;
      `TimesIsProduct` shows it is the product. */
  function Times(t: real, n: nat): real
  {
    if n == 0 then 0.0 else Times(t, n - 1) + t
  }

  lemma {:induction false} TimesIsProduct(t: real, n: nat)
    ensures Times(t, n) == t * n as real
  {
    if n > 0 {
      TimesIsProduct(t, n - 1);
      assert t * n as real == t * (n - 1) as real + t;
    }
  }

  /** Scaling by a whole number keeps the order of the scaled values. */
  lemma {:induction false} TimesMonotone(s: real, t: real, n: nat)
    requires s <= t
    ensures Times(s, n) <= Times(t, n)
  {
    if n > 0 {
      TimesMonotone(s, t, n - 1);
    }
  }

  lemma {:induction false} TimesNonNegative(t: real, n: nat)
    requires 0.0 <= t
    ensures 0.0 <= Times(t, n)
  {
    if n > 0 {
      TimesNonNegative(t, n - 1);
    }
  }

  /** `i * n` for a count `i` and an integer `n` (an offset into a sequence), written as repeated
      addition so that proofs about it need no nonlinear arithmetic from the solver;
      `MulIsProduct` shows it is the product. */
  function Mul(i: nat, n: int): int
  {
    if i == 0 then 0 else Mul(i - 1, n) + n
  }

  lemma {:induction false} MulIsProduct(i: nat, n: int)
    ensures Mul(i, n) == i * n
  {
    if i > 0 {
      MulIsProduct(i - 1, n);
      assert i * n == (i - 1) * n + n;
    }
  }

  /** `int(x)` for a float `x`: truncation toward zero. */
  function Trunc(x: real): int
  {
    if x >= 0.0 then x.Floor else -((-x).Floor)
  }

  /** `int(x)` drops the fractional part: it rounds down a non-negative x and up a negative one. */
  lemma TruncTowardZero(x: real)
    ensures 0.0 <= x ==> 0 <= Trunc(x) && Trunc(x) as real <= x < Trunc(x) as real + 1.0
    ensures x < 0.0 ==> Trunc(x) <= 0 && Trunc(x) as real - 1.0 < x <= Trunc(x) as real
  {
  }

  /** On non-negative values `int(x)` is monotone. */
  lemma TruncMonotone(x: real, y: real)
    requires 0.0 <= x <= y
    ensures 0 <= Trunc(x) <= Trunc(y)
  {
  }

  /** Where a (possibly negative or too large) slice bound lands in a sequence of length `n`. */
  function Clip(i: int, n: nat): (r: nat)
    ensures r <= n
    ensures 0 <= i <= n ==> r == i
    ensures i < 0 ==> r == if i + n < 0 then 0 else i + n
    ensures n < i ==> r == n
  {
    if i < 0 then (if i + n < 0 then 0 else i + n) else if i > n then n else i
  }

  /** Python's `s[i:j]`: negative bounds count from the end, out-of-range bounds are clipped,
      and the slice is empty once the clipped start is not below the clipped end. It never fails. */
  function Slice<T>(s: seq<T>, i: int, j: int): (r: seq<T>)
    ensures 0 <= i <= j <= |s| ==> r == s[i..j]
    ensures Clip(i, |s|) < Clip(j, |s|) ==> r == s[Clip(i, |s|)..Clip(j, |s|)]
    ensures Clip(j, |s|) <= Clip(i, |s|) ==> r == []
  {
    var lo, hi := Clip(i, |s|), Clip(j, |s|);
    if lo < hi then s[lo..hi] else []
  }

  /** Python's `a // b` for a non-negative `a` and a non-zero `b`: rounds toward negative infinity. */
  function FloorDiv(a: nat, b: int): int
    requires b != 0
  {
    if b > 0 then a / b else -((a + (-b) - 1) / (-b))
  }

  /** `a // b` is the largest q with `q * b <= a` for a positive b, and the smallest q with
      `q * b >= a` for a negative one. */
  lemma FloorDivRounds(a: nat, b: int)
    requires b != 0
    ensures b > 0 ==> FloorDiv(a, b) * b <= a < FloorDiv(a, b) * b + b
    ensures b < 0 ==> FloorDiv(a, b) * b + b < a <= FloorDiv(a, b) * b
  {
  }
}

=== FILE: scores.dfy ===
/**
 * The decision taken on a list of per-segment guitar scores: guitar is detected when the
 * largest score is strictly above 0.5, and `max` of an empty list raises ValueError.
 */
module GuitarScores {
  import opened Py

  const DetectionThreshold: real := 0.5

  /** `max(scores)` of a non-empty list: one of the scores, and no score is larger. */
  function MaxScore(scores: seq<real>): (m: real)
    requires |scores| > 0
    ensures m in scores
    ensures forall k :: 0 <= k < |scores| ==> scores[k] <= m
  {
    if |scores| == 1 then scores[0]
    else
      var m := MaxScore(scores[..|scores| - 1]);
      assert forall k :: 0 <= k < |scores| - 1 ==> scores[k] == scores[..|scores| - 1][k];
      if scores[|scores| - 1] > m then scores[|scores| - 1] else m
  }

  datatype Decision = Decision(isGuitar: bool, maxScore: real)

  /** `max_score = max(segment_scores); is_guitar_detected = max_score > 0.5`. */
  function Decide(scores: seq<real>): Result<Decision>
  {
    if |scores| == 0 then Err(ValueError)
    else
      var m := MaxScore(scores);
      Ok(Decision(m > DetectionThreshold, m))
  }

  /** The decision fails exactly on an empty list; otherwise guitar is detected exactly when some
      segment scores strictly above 0.5, and the reported score is the largest one. */
  lemma DecideDetectsIffSomeScoreAbove(scores: seq<real>)
    ensures Decide(scores).Err? <==> |scores| == 0
    ensures Decide(scores).Err? ==> Decide(scores).error == ValueError
    ensures Decide(scores).Ok? ==>
      && (Decide(scores).value.isGuitar <==> exists k :: 0 <= k < |scores| && scores[k] > DetectionThreshold)
      && Decide(scores).value.maxScore in scores
      && (forall k :: 0 <= k < |scores| ==> scores[k] <= Decide(scores).value.maxScore)
  {
    if |scores| > 0 {
      var m := MaxScore(scores);
      var i :| 0 <= i < |scores| && scores[i] == m;
    }
  }

  /** A score of exactly 0.5 is not enough. */
  lemma ThresholdIsStrict(scores: seq<real>)
    requires |scores| > 0 && forall k :: 0 <= k < |scores| ==> scores[k] <= DetectionThreshold
    ensures Decide(scores).Ok? && !Decide(scores).value.isGuitar
  {
  }
}

=== FILE: segments.dfy ===
/**
 * `segment_audio`: a waveform cut into consecutive segments of `int(segment_duration * sr)`
 * samples, the last one possibly shorter.
 */
module Segmenting {
  import opened Py

  /** `int(segment_duration * sr)`: the number of samples per segment. */
  function SegmentSamples(segmentDuration: real, sr: nat): int
  {
    Trunc(Times(segmentDuration, sr))
  }

  /** The number of offsets in `range(0, n, s)` for a positive step. */
  function CeilDiv(n: nat, s: nat): nat
    requires s > 0
  {
    (n + s - 1) / s
  }

  /** `[w[i:i + s] for i in range(0, len(w), s)]` for a positive step `s`. */
  function Chunks<T>(w: seq<T>, s: nat): seq<seq<T>>
    requires s > 0
  {
    seq(CeilDiv(|w|, s), k => Slice(w, k * s, k * s + s))
  }

  /** `segment_audio(waveform, segment_duration, sr)`: `range` raises ValueError for a zero step
      and is empty for a negative one. */
  function SegmentAudio(waveform: seq<real>, segmentDuration: real, sr: nat): Result<seq<seq<real>>>
  {
    var s := SegmentSamples(segmentDuration, sr);
    if s == 0 then Err(ValueError)
    else if s < 0 then Ok([])
    else Ok(Chunks(waveform, s))
  }

  /** The segments laid end to end. */
  function Concat<T>(parts: seq<seq<T>>): seq<T>
  {
    if parts == [] then [] else parts[0] + Concat(parts[1..])
  }

  lemma {:induction false} ConcatAppend<T>(a: seq<seq<T>>, b: seq<seq<T>>)
    ensures Concat(a + b) == Concat(a) + Concat(b)
  {
    if a != [] {
      assert (a + b)[0] == a[0] && (a + b)[1..] == a[1..] + b;
      ConcatAppend(a[1..], b);
      assert Concat(a + b) == a[0] + (Concat(a[1..]) + Concat(b));
    } else {
      assert a + b == b;
    }
  }

  /** An empty part adds nothing. */
  lemma ConcatEmptyLast<T>(a: seq<seq<T>>)
    ensures Concat(a + [[]]) == Concat(a)
  {
    var empty: seq<seq<T>> := [];
    var last: seq<seq<T>> := [[]];
    ConcatAppend(a, last);
    assert last[1..] == empty;
  }

  /** Segment k is the samples from `k * s` up to `k * s + s` or the end of the waveform. */
  lemma ChunkAt<T>(w: seq<T>, s: nat, k: nat)
    requires s > 0 && k < CeilDiv(|w|, s)
    ensures k * s < |w|
    ensures Chunks(w, s)[k] == w[k * s..Min(k * s + s, |w|)]
  {
    CeilDivBound(|w|, s, k);
  }

  /** The segment count drops by one when the first `s` samples are removed. */
  lemma CeilDivDrop(n: nat, s: nat)
    requires 0 < s && 0 < n
    ensures CeilDiv(n, s) == 1 + CeilDiv(n - Min(s, n), s)
  {
    if n <= s {
      DivAtLeast(n + s - 1, s, 1);
      DivBelow(n + s - 1, s, 2);
      DivBelow(s - 1, s, 1);
    } else {
      DivStep(n - s + s - 1, s);
    }
  }

  /** A non-empty waveform starts with one full (or final short) segment, followed by the
      segments of the rest. */
  lemma ChunksCons<T>(w: seq<T>, s: nat)
    requires s > 0 && |w| > 0
    ensures var m := Min(s, |w|);
      Chunks(w, s) == [w[..m]] + Chunks(w[m..], s)
  {
    var m := Min(s, |w|);
    var c := Chunks(w, s);
    var rest := Chunks(w[m..], s);
    CeilDivDrop(|w|, s);
    assert |c| == 1 + |rest|;
    forall k | 0 <= k < |c| ensures c[k] == ([w[..m]] + rest)[k] {
      ChunkAt(w, s, k);
      if k > 0 {
        ChunkAt(w[m..], s, k - 1);
        assert (k - 1) * s + s == k * s;
      }
    }
  }

  /** Laying the segments end to end gives the waveform back. */
  lemma {:induction false} ChunksConcat<T>(w: seq<T>, s: nat)
    requires s > 0
    ensures Concat(Chunks(w, s)) == w
    decreases |w|
  {
    if |w| == 0 {
      assert Chunks(w, s) == [];
    } else {
      var m := Min(s, |w|);
      ChunksCons(w, s);
      ChunksConcat(w[m..], s);
      assert ([w[..m]] + Chunks(w[m..], s))[1..] == Chunks(w[m..], s);
      assert w[..m] + w[m..] == w;
    }
  }

  /** There are `ceil(len / s)` segments, none exactly when the waveform is empty. */
  lemma ChunkCount<T>(w: seq<T>, s: nat)
    requires s > 0
    ensures |Chunks(w, s)| == CeilDiv(|w|, s)
    ensures |w| == 0 <==> Chunks(w, s) == []
  {
    CeilDivBound(|w|, s, 0);
  }

  /** Segment k holds exactly `s` samples unless it is the last, which holds between 1 and `s`. */
  lemma ChunkSize<T>(w: seq<T>, s: nat, k: nat)
    requires s > 0 && k < CeilDiv(|w|, s)
    ensures k < CeilDiv(|w|, s) - 1 ==> |Chunks(w, s)[k]| == s
    ensures k == CeilDiv(|w|, s) - 1 ==> 0 < |Chunks(w, s)[k]| <= s
  {
    ChunkAt(w, s, k);
    ChunkBounds(|w|, s, k);
  }

  /** Where segment k ends relative to the end of the waveform. */
  lemma ChunkBounds(n: nat, s: nat, k: nat)
    requires s > 0 && k < CeilDiv(n, s)
    ensures k + 1 < CeilDiv(n, s) ==> k * s + s < n
    ensures k + 1 == CeilDiv(n, s) ==> k * s < n <= k * s + s
  {
    CeilDivBound(n, s, k);
    CeilDivBound(n, s, k + 1);
    assert (k + 1) * s == k * s + s;
  }

  /** `segment_audio` fails only for a zero step; for a positive step its segments lay end to end
      give the waveform back, and for a negative one there are none. */
  lemma SegmentAudioPartition(waveform: seq<real>, segmentDuration: real, sr: nat)
    ensures SegmentAudio(waveform, segmentDuration, sr).Err? <==> SegmentSamples(segmentDuration, sr) == 0
    ensures SegmentSamples(segmentDuration, sr) > 0 ==>
      var segments := SegmentAudio(waveform, segmentDuration, sr).value;
      && Concat(segments) == waveform
      && |segments| == CeilDiv(|waveform|, SegmentSamples(segmentDuration, sr))
    ensures SegmentSamples(segmentDuration, sr) < 0 ==> SegmentAudio(waveform, segmentDuration, sr) == Ok([])
  {
    var s := SegmentSamples(segmentDuration, sr);
    if s > 0 {
      ChunksConcat(waveform, s);
    }
  }

  /** Offset `k * s` is in `range(0, n, s)` exactly when it is below n. */
  lemma CeilDivBound(n: nat, s: nat, k: nat)
    requires s > 0
    ensures k < CeilDiv(n, s) <==> k * s < n
  {
    assert (k + 1) * s == k * s + s;
    if k * s < n {
      DivAtLeast(n + s - 1, s, k + 1);
    } else {
      DivBelow(n + s - 1, s, k + 1);
    }
  }

  lemma {:induction false} MulMonotone(x: int, y: int, s: nat)
    requires x <= y
    ensures x * s <= y * s
  {
    if s > 0 {
      MulMonotone(x, y, s - 1);
    }
  }

  lemma DivAtLeast(a: nat, s: nat, q: nat)
    requires s > 0 && q * s <= a
    ensures q <= a / s
  {
    if a / s < q {
      MulMonotone(a / s + 1, q, s);
    }
  }

  lemma DivBelow(a: nat, s: nat, q: nat)
    requires s > 0 && a < q * s
    ensures a / s < q
  {
    if a / s >= q {
      MulMonotone(q, a / s, s);
    }
  }

  /** Adding the divisor adds one to the quotient. */
  lemma DivStep(a: nat, s: nat)
    requires s > 0
    ensures (a + s) / s == a / s + 1
  {
    assert (a / s + 1) * s == (a / s) * s + s;
    assert (a / s + 2) * s == (a / s) * s + s + s;
    DivAtLeast(a + s, s, a / s + 1);
    DivBelow(a + s, s, a / s + 2);
  }
}

=== FILE: silence.dfy ===
/**
 * Silence detection in a vocal stem: the waveform is cut into hop-aligned windows, each window
 * whose dB energy is strictly below a threshold is silent, and one forward pass groups consecutive
 * silent frames into [start, end] sections whose accumulated duration reaches a minimum.
 *
 * Times are exact: frame i starts at i * 512 / sr seconds, and the running duration of a run of
 * c silent frames is c * (512 / sr). The decibel conversion of a window's energy is a parameter.
 */
module SilenceDetection {
  import opened Py

  const FrameLength: nat := 2048
  const HopLength: nat := 512
  const DefaultMinSilenceDuration: real := 5.0

  /** A `[start, end]` pair in seconds. */
  datatype Interval = Interval(start: real, end: real)

  /** The frames first, first + 1, ..., stop - 1. */
  datatype Run = Run(first: nat, stop: nat)

  // ---------------------------------------------------------------------------------------------
  // Frames and their energy
  // ---------------------------------------------------------------------------------------------

  /** The number of offsets in `range(0, n, 512)`. */
  function FrameCount(n: nat): nat { (n + HopLength - 1) / HopLength }

  /** The frame offsets are exactly the multiples of 512 below n. */
  lemma FrameOffsets(n: nat, k: nat)
    ensures k < FrameCount(n) <==> k * HopLength < n
  {
  }

  /** `[y[i:i+2048] for i in range(0, len(y), 512)]`. */
  function Windows(y: seq<real>): seq<seq<real>>
  {
    seq(FrameCount(|y|), k => Slice(y, k * HopLength, k * HopLength + FrameLength))
  }

  /** Every offset below `len(y)` starts a window, none at or past it does, and each window is a
      non-empty run of at most 2048 consecutive samples starting at its offset. */
  lemma WindowsShape(y: seq<real>)
    ensures |Windows(y)| * HopLength >= |y|
    ensures |Windows(y)| == 0 || (|Windows(y)| - 1) * HopLength < |y|
    ensures forall k :: 0 <= k < |Windows(y)| ==>
      && 0 < |Windows(y)[k]| <= FrameLength
      && k * HopLength + |Windows(y)[k]| <= |y|
      && Windows(y)[k] == y[k * HopLength..k * HopLength + |Windows(y)[k]|]
    ensures forall k :: 0 <= k < |Windows(y)| ==> |Windows(y)[k]| == Min(FrameLength, |y| - k * HopLength)
  {
    var n := |y|;
    if FrameCount(n) > 0 {
      FrameOffsets(n, FrameCount(n) - 1);
    }
    FrameOffsets(n, FrameCount(n));
    forall k | 0 <= k < |Windows(y)|
      ensures 0 < |Windows(y)[k]| <= FrameLength
      ensures k * HopLength + |Windows(y)[k]| <= |y|
      ensures Windows(y)[k] == y[k * HopLength..k * HopLength + |Windows(y)[k]|]
      ensures |Windows(y)[k]| == Min(FrameLength, |y| - k * HopLength)
    {
      FrameOffsets(n, k);
    }
  }

  /** `sum(abs(w ** 2))`: the energy of one window. */
  function Energy(w: seq<real>): (e: real)
    ensures e >= 0.0
  {
    if |w| == 0 then 0.0 else Energy(w[..|w| - 1]) + w[|w| - 1] * w[|w| - 1]
  }

  /** The dB energy of every window; `toDb` stands for `10 * log10(e + 1e-6)`. */
  function EnergyDb(y: seq<real>, toDb: real -> real): seq<real>
  {
    var windows := Windows(y);
    seq(|windows|, k requires 0 <= k < |windows| => toDb(Energy(windows[k])))
  }

  /** `energy_db < silence_threshold`, frame by frame. */
  function SilenceFlags(db: seq<real>, threshold: real): seq<bool>
  {
    seq(|db|, k requires 0 <= k < |db| => db[k] < threshold)
  }

  // ---------------------------------------------------------------------------------------------
  // Maximal runs of silent frames, and the sections they produce
  // ---------------------------------------------------------------------------------------------

  /** `i * hop_length / sr`: the time at which frame i starts. */
  function Time(i: nat, sr: nat): real
    requires sr > 0
  {
    (i * HopLength) as real / sr as real
  }

  /** `hop_length / sr`: what one silent frame adds to the running duration. */
  function HopDuration(sr: nat): real
    requires sr > 0
  {
    HopLength as real / sr as real
  }

  /** The running duration accumulated over a run. */
  function Accumulated(r: Run, sr: nat): real
    requires sr > 0
  {
    (r.stop - r.first) as real * HopDuration(sr)
  }

  /** A run is reported only when its running duration reaches the minimum. */
  predicate Qualifies(r: Run, sr: nat, minDuration: real)
    requires sr > 0
  {
    Accumulated(r, sr) >= minDuration
  }

  /** With the default minimum of 5 s, a run is reported exactly when its frames hold at least
      five seconds of samples: `count * 512 >= 5 * sr`. */
  lemma DefaultMinimumInSamples(r: Run, sr: nat)
    requires sr > 0
    ensures Qualifies(r, sr, DefaultMinSilenceDuration) <==> (r.stop - r.first) * HopLength >= 5 * sr
  {
    var c := r.stop - r.first;
    var x := (c * HopLength) as real;
    assert Accumulated(r, sr) == x / sr as real;
    assert x / sr as real >= 5.0 <==> x >= 5.0 * sr as real;
  }

  /** A run closed by a loud frame ends at that frame's time; a run still open after the last
      frame ends at the duration of the waveform, `len(y) / sr`. */
  function ToInterval(r: Run, frames: nat, n: nat, sr: nat): Interval
    requires sr > 0
  {
    Interval(Time(r.first, sr), if r.stop < frames then Time(r.stop, sr) else n as real / sr as real)
  }

  /** The first frame at or after i that is not silent, or the frame count. */
  function RunEnd(silent: seq<bool>, i: nat): (e: nat)
    requires i <= |silent|
    ensures i <= e <= |silent|
    ensures forall k :: i <= k < e ==> silent[k]
    ensures e < |silent| ==> !silent[e]
    decreases |silent| - i
  {
    if i == |silent| || !silent[i] then i else RunEnd(silent, i + 1)
  }

  /** The runs of consecutive silent frames at or after frame i, in order. */
  function RunsFrom(silent: seq<bool>, i: nat): seq<Run>
    requires i <= |silent|
    decreases |silent| - i
  {
    if i == |silent| then []
    else if !silent[i] then RunsFrom(silent, i + 1)
    else
      var e := RunEnd(silent, i);
      [Run(i, e)] + RunsFrom(silent, e)
  }

  /** The sections reported for a list of runs: the qualifying ones, in order. */
  function Emitted(runs: seq<Run>, frames: nat, n: nat, sr: nat, minDuration: real): seq<Interval>
    requires sr > 0
  {
    if runs == [] then []
    else
      (if Qualifies(runs[0], sr, minDuration) then [ToInterval(runs[0], frames, n, sr)] else [])
      + Emitted(runs[1..], frames, n, sr, minDuration)
  }

  /** What the grouping loop reports for the silence flags of a waveform of n samples. */
  function Detect(silent: seq<bool>, n: nat, sr: nat, minDuration: real): seq<Interval>
    requires sr > 0
  {
    Emitted(RunsFrom(silent, 0), |silent|, n, sr, minDuration)
  }

  /** What the whole of `detect_silent_sections` reports for a waveform. */
  function SilentSections(y: seq<real>, sr: nat, toDb: real -> real, threshold: real, minDuration: real): seq<Interval>
    requires sr > 0
  {
    Detect(SilenceFlags(EnergyDb(y, toDb), threshold), |y|, sr, minDuration)
  }

  // ---------------------------------------------------------------------------------------------
  // The grouping loop
  // ---------------------------------------------------------------------------------------------

  /** The runs the loop has still to report after frame i, when the run starting at `open`
      (if any) is still open. */
  function Pending(silent: seq<bool>, i: nat, open: Option<nat>): seq<Run>
    requires i <= |silent|
  {
    match open
    case None => RunsFrom(silent, i)
    case Some(a) =>
      var e := RunEnd(silent, i);
      [Run(a, e)] + RunsFrom(silent, e)
  }

  /** `sections` followed by what is still pending after frame i is everything `Detect` reports. */
  predicate Tracks(sections: seq<Interval>, silent: seq<bool>, i: nat, open: Option<nat>, n: nat, sr: nat, minDuration: real)
    requires i <= |silent| && sr > 0
  {
    sections + Emitted(Pending(silent, i, open), |silent|, n, sr, minDuration) == Detect(silent, n, sr, minDuration)
  }

  lemma EmittedCons(r: Run, rest: seq<Run>, frames: nat, n: nat, sr: nat, minDuration: real)
    requires sr > 0
    ensures Emitted([r] + rest, frames, n, sr, minDuration)
      == (if Qualifies(r, sr, minDuration) then [ToInterval(r, frames, n, sr)] else [])
         + Emitted(rest, frames, n, sr, minDuration)
  {
    assert ([r] + rest)[1..] == rest;
  }

  /** A silent frame opens a run when none is open and otherwise extends the open one. */
  lemma TracksSilent(sections: seq<Interval>, silent: seq<bool>, i: nat, open: Option<nat>, n: nat, sr: nat, minDuration: real)
    requires i < |silent| && sr > 0 && silent[i]
    requires Tracks(sections, silent, i, open, n, sr, minDuration)
    ensures Tracks(sections, silent, i + 1, if open.None? then Some(i) else open, n, sr, minDuration)
  {
    assert RunEnd(silent, i) == RunEnd(silent, i + 1);
  }

  /** A loud frame closes the open run, which is reported when it qualifies. */
  lemma TracksLoud(sections: seq<Interval>, silent: seq<bool>, i: nat, open: Option<nat>, n: nat, sr: nat, minDuration: real)
    requires i < |silent| && sr > 0 && !silent[i]
    requires Tracks(sections, silent, i, open, n, sr, minDuration)
    ensures open.None? ==> Tracks(sections, silent, i + 1, None, n, sr, minDuration)
    ensures open.Some? ==>
      var closed := Run(open.value, i);
      Tracks(sections + (if Qualifies(closed, sr, minDuration) then [Interval(Time(open.value, sr), Time(i, sr))] else []),
             silent, i + 1, None, n, sr, minDuration)
  {
    assert RunEnd(silent, i) == i;
    if open.Some? {
      var closed := Run(open.value, i);
      EmittedCons(closed, RunsFrom(silent, i + 1), |silent|, n, sr, minDuration);
    }
  }

  /** After the last frame only the open run, if any, is left; it ends at `len(y) / sr`. */
  lemma TracksAtEnd(sections: seq<Interval>, silent: seq<bool>, open: Option<nat>, n: nat, sr: nat, minDuration: real)
    requires sr > 0
    requires Tracks(sections, silent, |silent|, open, n, sr, minDuration)
    ensures open.None? ==> sections == Detect(silent, n, sr, minDuration)
    ensures open.Some? ==>
      var last := Run(open.value, |silent|);
      sections + (if Qualifies(last, sr, minDuration) then [Interval(Time(open.value, sr), n as real / sr as real)] else [])
        == Detect(silent, n, sr, minDuration)
  {
    if open.Some? {
      EmittedCons(Run(open.value, |silent|), [], |silent|, n, sr, minDuration);
    }
  }

  /** One more silent frame adds one hop to the running duration. */
  lemma AccumulatedStep(a: nat, i: nat, sr: nat)
    requires sr > 0 && a <= i
    ensures Accumulated(Run(a, i + 1), sr) == Accumulated(Run(a, i), sr) + HopDuration(sr)
  {
    assert (i + 1 - a) as real == (i - a) as real + 1.0;
  }

  /** What the grouping loop knows after the frames before i: a run is open exactly when a start
      time is held, the start time and running duration are those of the open run, and the
      sections found so far, followed by what is still pending, are everything `Detect` reports. */
  ghost predicate Grouping(sections: seq<Interval>, silenceStart: Option<real>, duration: real, open: Option<nat>,
                           silent: seq<bool>, i: nat, n: nat, sr: nat, minDuration: real)
    requires i <= |silent| && sr > 0
  {
    && (open.Some? <==> silenceStart.Some?)
    && (open.Some? ==>
      && open.value < i
      && silenceStart.value == Time(open.value, sr)
      && duration == Accumulated(Run(open.value, i), sr))
    && (open.None? ==> duration == 0.0)
    && Tracks(sections, silent, i, open, n, sr, minDuration)
  }

  /** A silent frame opens a run at its own time when none is open and adds one hop to the
      running duration. */
  lemma GroupingSilent(sections: seq<Interval>, silenceStart: Option<real>, duration: real, open: Option<nat>,
                       silent: seq<bool>, i: nat, n: nat, sr: nat, minDuration: real)
    requires i < |silent| && sr > 0 && silent[i]
    requires Grouping(sections, silenceStart, duration, open, silent, i, n, sr, minDuration)
    ensures silenceStart.None? ==>
      Grouping(sections, Some(Time(i, sr)), duration + HopDuration(sr), Some(i), silent, i + 1, n, sr, minDuration)
    ensures silenceStart.Some? ==>
      Grouping(sections, silenceStart, duration + HopDuration(sr), open, silent, i + 1, n, sr, minDuration)
  {
    TracksSilent(sections, silent, i, open, n, sr, minDuration);
    AccumulatedStep(if open.None? then i else open.value, i, sr);
  }

  /** A loud frame closes the open run, reporting it when its running duration reaches the
      minimum, and leaves no run open. */
  lemma GroupingLoud(sections: seq<Interval>, silenceStart: Option<real>, duration: real, open: Option<nat>,
                     silent: seq<bool>, i: nat, n: nat, sr: nat, minDuration: real)
    requires i < |silent| && sr > 0 && !silent[i]
    requires Grouping(sections, silenceStart, duration, open, silent, i, n, sr, minDuration)
    ensures silenceStart.None? ==> Grouping(sections, None, duration, None, silent, i + 1, n, sr, minDuration)
    ensures silenceStart.Some? ==>
      Grouping(sections + (if duration >= minDuration then [Interval(silenceStart.value, Time(i, sr))] else []),
               None, 0.0, None, silent, i + 1, n, sr, minDuration)
  {
    TracksLoud(sections, silent, i, open, n, sr, minDuration);
  }

  /** The body of the grouping loop for frame i: a silent frame opens a run or extends the open
      one; a loud frame closes the open run and reports it when its duration reaches the minimum. */
  method GroupFrame(silent: seq<bool>, i: nat, n: nat, sr: nat, minDuration: real,
                    sections: seq<Interval>, silenceStart: Option<real>, duration: real, ghost open: Option<nat>)
    returns (sections': seq<Interval>, silenceStart': Option<real>, duration': real, ghost open': Option<nat>)
    requires i < |silent| && sr > 0
    requires Grouping(sections, silenceStart, duration, open, silent, i, n, sr, minDuration)
    ensures Grouping(sections', silenceStart', duration', open', silent, i + 1, n, sr, minDuration)
  {
    sections', silenceStart', duration', open' := sections, silenceStart, duration, open;
    var time := Time(i, sr);
    if silent[i] {
      GroupingSilent(sections, silenceStart, duration, open, silent, i, n, sr, minDuration);
      if silenceStart.None? {
        silenceStart' := Some(time);
        open' := Some(i);
      }
      duration' := duration + HopDuration(sr);
    } else {
      GroupingLoud(sections, silenceStart, duration, open, silent, i, n, sr, minDuration);
      if silenceStart.Some? {
        var closed: seq<Interval> := [];
        if duration >= minDuration {
          closed := [Interval(silenceStart.value, time)];
        }
        sections' := sections + closed;
        silenceStart' := None;
        duration' := 0.0;
        open' := None;
      }
    }
  }

  /** The grouping loop of `detect_silent_sections`: a two-state machine (no run open, or a run
      open with its start time and running duration) over the silence flags. */
  method GroupSilentFrames(silent: seq<bool>, n: nat, sr: nat, minDuration: real)
    returns (sections: seq<Interval>)
    requires sr > 0 && |silent| == FrameCount(n)
    ensures sections == Detect(silent, n, sr, minDuration)
  {
    sections := [];
    var silenceStart: Option<real> := None;
    var duration: real := 0.0;
    ghost var open: Option<nat> := None;
    for i := 0 to |silent|
      invariant Grouping(sections, silenceStart, duration, open, silent, i, n, sr, minDuration)
    {
      sections, silenceStart, duration, open :=
        GroupFrame(silent, i, n, sr, minDuration, sections, silenceStart, duration, open);
    }
    TracksAtEnd(sections, silent, open, n, sr, minDuration);
    if silenceStart.Some? && duration >= minDuration {
      sections := sections + [Interval(silenceStart.value, n as real / sr as real)];
    }
  }

  /** `detect_silent_sections` on an already loaded waveform. */
  method DetectSilentSections(y: seq<real>, sr: nat, toDb: real -> real, silenceThreshold: real,
                              minSilenceDuration: real)
    returns (sections: seq<Interval>)
    requires sr > 0
    ensures sections == SilentSections(y, sr, toDb, silenceThreshold, minSilenceDuration)
  {
    var energyDb := EnergyDb(y, toDb);
    var silenceFrames := SilenceFlags(energyDb, silenceThreshold);
    sections := GroupSilentFrames(silenceFrames, |y|, sr, minSilenceDuration);
  }

  // ---------------------------------------------------------------------------------------------
  // Properties of the runs
  // ---------------------------------------------------------------------------------------------

  /** A run of silent frames that cannot be extended on either side. */
  predicate IsMaximalRun(silent: seq<bool>, r: Run)
  {
    && r.first < r.stop <= |silent|
    && (forall k :: r.first <= k < r.stop ==> silent[k])
    && (r.first == 0 || !silent[r.first - 1])
    && (r.stop == |silent| || !silent[r.stop])
  }

  predicate Covers(runs: seq<Run>, k: int)
  {
    exists j :: 0 <= j < |runs| && runs[j].first <= k < runs[j].stop
  }

  /** Runs that lie in frames [0, frames) in increasing order, a loud frame between any two. */
  predicate Separated(runs: seq<Run>, frames: nat)
  {
    && (forall j :: 0 <= j < |runs| ==> runs[j].first < runs[j].stop <= frames)
    && (forall j, j' :: 0 <= j < j' < |runs| ==> runs[j].stop < runs[j'].first)
  }

  /** The runs found from frame i on are maximal, start at or after i, and are in increasing order
      with a loud frame between any two. */
  lemma {:induction false} RunsFromShape(silent: seq<bool>, i: nat)
    requires i <= |silent| && (i == 0 || !silent[i - 1])
    ensures forall j :: 0 <= j < |RunsFrom(silent, i)| ==>
      i <= RunsFrom(silent, i)[j].first && IsMaximalRun(silent, RunsFrom(silent, i)[j])
    ensures Separated(RunsFrom(silent, i), |silent|)
    decreases |silent| - i
  {
    var runs := RunsFrom(silent, i);
    if i == |silent| {
    } else if !silent[i] {
      RunsFromShape(silent, i + 1);
    } else {
      var e := RunEnd(silent, i);
      var rest := RunsFrom(silent, e);
      assert runs == [Run(i, e)] + rest;
      if e < |silent| {
        assert rest == RunsFrom(silent, e + 1);
        RunsFromShape(silent, e + 1);
        forall j, j' | 0 <= j < j' < |runs| ensures runs[j].stop < runs[j'].first {
          assert runs[j'] == rest[j' - 1];
          if j > 0 {
            assert runs[j] == rest[j - 1];
          }
        }
      } else {
        assert rest == [];
      }
    }
  }

  /** A frame at or after i lies in one of the runs found from i on exactly when it is silent. */
  lemma {:induction false} RunsFromCoverage(silent: seq<bool>, i: nat)
    requires i <= |silent|
    ensures forall k :: i <= k < |silent| ==> (silent[k] <==> Covers(RunsFrom(silent, i), k))
    decreases |silent| - i
  {
    var runs := RunsFrom(silent, i);
    if i == |silent| {
    } else if !silent[i] {
      RunsFromCoverage(silent, i + 1);
      RunsFromShape(silent, i + 1);
      assert !Covers(runs, i);
    } else {
      var e := RunEnd(silent, i);
      var rest := RunsFrom(silent, e);
      assert runs == [Run(i, e)] + rest;
      RunsFromCoverage(silent, e);
      forall k | i <= k < |silent| ensures silent[k] <==> Covers(runs, k) {
        if k < e {
          assert runs[0].first <= k < runs[0].stop;
        } else {
          if silent[k] {
            var j :| 0 <= j < |rest| && rest[j].first <= k < rest[j].stop;
            assert runs[j + 1] == rest[j];
          }
          if Covers(runs, k) {
            var j :| 0 <= j < |runs| && runs[j].first <= k < runs[j].stop;
            if j > 0 {
              assert runs[j] == rest[j - 1];
            }
          }
        }
      }
    }
  }

  /** The runs are the maximal runs of silent frames, in increasing order and disjoint, and a frame
      lies in one of them exactly when it is silent. */
  lemma RunsFromAreMaximalRuns(silent: seq<bool>)
    ensures forall j :: 0 <= j < |RunsFrom(silent, 0)| ==> IsMaximalRun(silent, RunsFrom(silent, 0)[j])
    ensures Separated(RunsFrom(silent, 0), |silent|)
    ensures forall k :: 0 <= k < |silent| ==> (silent[k] <==> Covers(RunsFrom(silent, 0), k))
  {
    RunsFromShape(silent, 0);
    RunsFromCoverage(silent, 0);
  }

  /** Two maximal runs that share a frame are the same run. */
  lemma MaximalRunsOverlapEqual(silent: seq<bool>, r: Run, s: Run, k: nat)
    requires IsMaximalRun(silent, r) && IsMaximalRun(silent, s)
    requires r.first <= k < r.stop && s.first <= k < s.stop
    ensures r == s
  {
  }

  // ---------------------------------------------------------------------------------------------
  // Properties of the reported sections
  // ---------------------------------------------------------------------------------------------

  lemma TimeStrictlyIncreasing(a: nat, b: nat, sr: nat)
    requires sr > 0 && a < b
    ensures Time(a, sr) < Time(b, sr)
  {
    assert (a * HopLength) as real < (b * HopLength) as real;
  }

  /** Every section comes from a qualifying run, and every qualifying run gives a section. */
  lemma {:induction false} EmittedFromQualifyingRuns(runs: seq<Run>, frames: nat, n: nat, sr: nat, minDuration: real)
    requires sr > 0
    ensures forall iv :: iv in Emitted(runs, frames, n, sr, minDuration) ==>
      (exists j :: 0 <= j < |runs| && Qualifies(runs[j], sr, minDuration) && iv == ToInterval(runs[j], frames, n, sr))
    ensures forall j :: 0 <= j < |runs| && Qualifies(runs[j], sr, minDuration) ==>
      ToInterval(runs[j], frames, n, sr) in Emitted(runs, frames, n, sr, minDuration)
  {
    if runs != [] {
      var out := Emitted(runs, frames, n, sr, minDuration);
      var tail := runs[1..];
      var rest := Emitted(tail, frames, n, sr, minDuration);
      var head := if Qualifies(runs[0], sr, minDuration) then [ToInterval(runs[0], frames, n, sr)] else [];
      EmittedFromQualifyingRuns(tail, frames, n, sr, minDuration);
      assert out == head + rest;
      forall iv | iv in out
        ensures exists j :: 0 <= j < |runs| && Qualifies(runs[j], sr, minDuration) && iv == ToInterval(runs[j], frames, n, sr)
      {
        if iv in head {
          assert iv == ToInterval(runs[0], frames, n, sr);
        } else {
          assert iv in Emitted(tail, frames, n, sr, minDuration);
          assert exists j :: 0 <= j < |tail| && Qualifies(tail[j], sr, minDuration) && iv == ToInterval(tail[j], frames, n, sr);
          var j :| 0 <= j < |tail| && Qualifies(tail[j], sr, minDuration) && iv == ToInterval(tail[j], frames, n, sr);
          assert tail[j] == runs[j + 1];
        }
      }
      forall j | 0 <= j < |runs| && Qualifies(runs[j], sr, minDuration)
        ensures ToInterval(runs[j], frames, n, sr) in out
      {
        if j > 0 {
          assert tail[j - 1] == runs[j];
        }
      }
    }
  }

  /** The section of a non-empty run starts before it ends. */
  lemma ToIntervalNonEmpty(r: Run, frames: nat, n: nat, sr: nat)
    requires sr > 0 && frames == FrameCount(n) && r.first < r.stop <= frames
    ensures ToInterval(r, frames, n, sr).start < ToInterval(r, frames, n, sr).end
  {
    if r.stop < frames {
      TimeStrictlyIncreasing(r.first, r.stop, sr);
    } else {
      FrameOffsets(n, r.first);
      assert (r.first * HopLength) as real < n as real;
    }
  }

  /** The section of a run ends before the section of a later run starts. */
  lemma ToIntervalBefore(r: Run, s: Run, frames: nat, n: nat, sr: nat)
    requires sr > 0 && r.stop < s.first < frames
    ensures ToInterval(r, frames, n, sr).end < ToInterval(s, frames, n, sr).start
  {
    TimeStrictlyIncreasing(r.stop, s.first, sr);
  }

  /** Every section starts before it ends. */
  predicate NonEmptySections(out: seq<Interval>) {
    forall k :: 0 <= k < |out| ==> out[k].start < out[k].end
  }

  /** Each section ends strictly before any later one starts. */
  predicate StrictlyOrdered(out: seq<Interval>) {
    forall k, l :: 0 <= k < l < |out| ==> out[k].end < out[l].start
  }

  /** Each section starts before it ends. */
  lemma EmittedNonEmpty(runs: seq<Run>, frames: nat, n: nat, sr: nat, minDuration: real)
    requires sr > 0 && frames == FrameCount(n) && Separated(runs, frames)
    ensures NonEmptySections(Emitted(runs, frames, n, sr, minDuration))
  {
    var out := Emitted(runs, frames, n, sr, minDuration);
    EmittedFromQualifyingRuns(runs, frames, n, sr, minDuration);
    forall k | 0 <= k < |out| ensures out[k].start < out[k].end {
      assert out[k] in out;
      var j :| 0 <= j < |runs| && Qualifies(runs[j], sr, minDuration) && out[k] == ToInterval(runs[j], frames, n, sr);
      ToIntervalNonEmpty(runs[j], frames, n, sr);
    }
  }

  lemma SeparatedTail(runs: seq<Run>, frames: nat)
    requires Separated(runs, frames) && runs != []
    ensures Separated(runs[1..], frames)
    ensures forall j :: 0 <= j < |runs[1..]| ==> runs[0].stop < runs[1..][j].first
  {
    var tail := runs[1..];
    forall j, j' | 0 <= j < j' < |tail| ensures tail[j].stop < tail[j'].first {
      assert tail[j] == runs[j + 1] && tail[j'] == runs[j' + 1];
    }
    forall j | 0 <= j < |tail| ensures runs[0].stop < tail[j].first {
      assert tail[j] == runs[j + 1];
    }
  }

  /** The section of the first run ends before any section of the later runs starts. */
  lemma FirstBeforeRest(runs: seq<Run>, frames: nat, n: nat, sr: nat, minDuration: real)
    requires sr > 0 && Separated(runs, frames) && runs != []
    ensures forall iv :: iv in Emitted(runs[1..], frames, n, sr, minDuration) ==>
      ToInterval(runs[0], frames, n, sr).end < iv.start
  {
    var tail := runs[1..];
    EmittedFromQualifyingRuns(tail, frames, n, sr, minDuration);
    forall iv | iv in Emitted(tail, frames, n, sr, minDuration)
      ensures ToInterval(runs[0], frames, n, sr).end < iv.start
    {
      var j :| 0 <= j < |tail| && Qualifies(tail[j], sr, minDuration) && iv == ToInterval(tail[j], frames, n, sr);
      assert tail[j] == runs[j + 1];
      ToIntervalBefore(runs[0], runs[j + 1], frames, n, sr);
    }
  }

  /** Sections come in increasing order, and a loud frame separates any two of them: one ends
      strictly before the next starts. */
  lemma {:induction false} EmittedOrdered(runs: seq<Run>, frames: nat, n: nat, sr: nat, minDuration: real)
    requires sr > 0 && frames == FrameCount(n) && Separated(runs, frames)
    ensures StrictlyOrdered(Emitted(runs, frames, n, sr, minDuration))
  {
    var out := Emitted(runs, frames, n, sr, minDuration);
    if runs != [] {
      var tail := runs[1..];
      var rest := Emitted(tail, frames, n, sr, minDuration);
      var head := if Qualifies(runs[0], sr, minDuration) then [ToInterval(runs[0], frames, n, sr)] else [];
      SeparatedTail(runs, frames);
      EmittedOrdered(tail, frames, n, sr, minDuration);
      FirstBeforeRest(runs, frames, n, sr, minDuration);
      assert out == head + rest;
      forall k, l | 0 <= k < l < |out| ensures out[k].end < out[l].start {
        assert out[l] == rest[l - |head|] && out[l] in rest;
        if k < |head| {
          assert out[k] == ToInterval(runs[0], frames, n, sr);
          assert ToInterval(runs[0], frames, n, sr).end < out[l].start;
        } else {
          assert out[k] == rest[k - |head|];
          assert 0 <= k - |head| < l - |head| < |rest|;
          assert rest[k - |head|].end < rest[l - |head|].start;
        }
      }
    }
  }

  lemma RealDivLess(x: real, y: real, s: real)
    requires s > 0.0 && x < y
    ensures x / s < y / s
  {
    assert y / s - x / s == (y - x) / s;
  }

  /** A run closed by a loud frame spans exactly its running duration; a run still open at the
      end spans the remaining samples, which can fall short of its running duration by less than
      one hop. */
  lemma IntervalSpan(r: Run, frames: nat, n: nat, sr: nat)
    requires sr > 0 && frames == FrameCount(n) && r.first < r.stop <= frames
    ensures r.stop < frames ==>
      ToInterval(r, frames, n, sr).end - ToInterval(r, frames, n, sr).start == Accumulated(r, sr)
    ensures r.stop == frames ==>
      && 0.0 <= Accumulated(r, sr) - (ToInterval(r, frames, n, sr).end - ToInterval(r, frames, n, sr).start)
      && Accumulated(r, sr) - (ToInterval(r, frames, n, sr).end - ToInterval(r, frames, n, sr).start) < HopDuration(sr)
  {
    var s := sr as real;
    var d := (r.stop - r.first) as real;
    assert Accumulated(r, sr) == d * HopLength as real / s;
    if r.stop < frames {
      assert Time(r.stop, sr) - Time(r.first, sr) == ((r.stop * HopLength) - (r.first * HopLength)) as real / s;
      assert (r.stop * HopLength) - (r.first * HopLength) == (r.stop - r.first) * HopLength;
    } else {
      var gap := frames * HopLength - n;
      FrameOffsets(n, frames);
      FrameOffsets(n, frames - 1);
      assert 0 <= gap < HopLength;
      var span := n as real / s - Time(r.first, sr);
      assert span == (n - r.first * HopLength) as real / s;
      assert Accumulated(r, sr) - span == gap as real / s;
      RealDivLess(gap as real, HopLength as real, s);
    }
  }

  /** Only the last section can be shorter than the minimum, and only when its run reached the end
      of the waveform; even then it falls short by less than one hop. */
  lemma {:induction false} EmittedDurations(runs: seq<Run>, frames: nat, n: nat, sr: nat, minDuration: real)
    requires sr > 0 && frames == FrameCount(n) && Separated(runs, frames)
    ensures forall k :: 0 <= k < |Emitted(runs, frames, n, sr, minDuration)| ==>
      var iv := Emitted(runs, frames, n, sr, minDuration)[k];
      iv.end - iv.start >= minDuration
      || (k == |Emitted(runs, frames, n, sr, minDuration)| - 1 && iv.end - iv.start > minDuration - HopDuration(sr))
  {
    if runs != [] {
      var out := Emitted(runs, frames, n, sr, minDuration);
      var tail := runs[1..];
      var rest := Emitted(tail, frames, n, sr, minDuration);
      var head := if Qualifies(runs[0], sr, minDuration) then [ToInterval(runs[0], frames, n, sr)] else [];
      assert Separated(tail, frames) by {
        forall j, j' | 0 <= j < j' < |tail| ensures tail[j].stop < tail[j'].first {
          assert tail[j] == runs[j + 1] && tail[j'] == runs[j' + 1];
        }
      }
      EmittedDurations(tail, frames, n, sr, minDuration);
      assert out == head + rest;
      var r := runs[0];
      IntervalSpan(r, frames, n, sr);
      if |tail| > 0 {
        assert r.stop < runs[1].first < frames;
      } else {
        assert rest == [];
      }
      forall k | 0 <= k < |out|
        ensures out[k].end - out[k].start >= minDuration
          || (k == |out| - 1 && out[k].end - out[k].start > minDuration - HopDuration(sr))
      {
        if k >= |head| {
          assert out[k] == rest[k - |head|];
        }
      }
    }
  }

  // ---------------------------------------------------------------------------------------------
  // What the source promises about detect_silent_sections
  // ---------------------------------------------------------------------------------------------

  /** Each reported section is the span of a maximal run of silent frames whose running duration
      reaches the minimum, and each such run is reported. */
  lemma SectionsAreQualifyingMaximalRuns(silent: seq<bool>, n: nat, sr: nat, minDuration: real)
    requires sr > 0
    ensures var out := Detect(silent, n, sr, minDuration);
      forall iv :: iv in out ==>
        (exists r :: IsMaximalRun(silent, r) && Qualifies(r, sr, minDuration) && iv == ToInterval(r, |silent|, n, sr))
    ensures var out := Detect(silent, n, sr, minDuration);
      forall r :: IsMaximalRun(silent, r) && Qualifies(r, sr, minDuration) ==> ToInterval(r, |silent|, n, sr) in out
  {
    var runs := RunsFrom(silent, 0);
    var out := Detect(silent, n, sr, minDuration);
    RunsFromAreMaximalRuns(silent);
    EmittedFromQualifyingRuns(runs, |silent|, n, sr, minDuration);
    assert out == Emitted(runs, |silent|, n, sr, minDuration);
    forall iv | iv in out
      ensures exists r :: IsMaximalRun(silent, r) && Qualifies(r, sr, minDuration) && iv == ToInterval(r, |silent|, n, sr)
    {
      var j :| 0 <= j < |runs| && Qualifies(runs[j], sr, minDuration) && iv == ToInterval(runs[j], |silent|, n, sr);
      assert IsMaximalRun(silent, runs[j]);
    }
    forall r | IsMaximalRun(silent, r) && Qualifies(r, sr, minDuration)
      ensures ToInterval(r, |silent|, n, sr) in out
    {
      assert silent[r.first];
      assert Covers(runs, r.first);
      var j :| 0 <= j < |runs| && runs[j].first <= r.first < runs[j].stop;
      MaximalRunsOverlapEqual(silent, runs[j], r, r.first);
    }
  }

  /** Sections are reported in increasing time order, pairwise disjoint, each non-empty, and a gap
      separates consecutive ones. */
  lemma SectionsOrderedAndDisjoint(silent: seq<bool>, n: nat, sr: nat, minDuration: real)
    requires sr > 0 && |silent| == FrameCount(n)
    ensures NonEmptySections(Detect(silent, n, sr, minDuration))
    ensures StrictlyOrdered(Detect(silent, n, sr, minDuration))
  {
    RunsFromAreMaximalRuns(silent);
    assert Detect(silent, n, sr, minDuration) == Emitted(RunsFrom(silent, 0), |silent|, n, sr, minDuration);
    EmittedNonEmpty(RunsFrom(silent, 0), |silent|, n, sr, minDuration);
    EmittedOrdered(RunsFrom(silent, 0), |silent|, n, sr, minDuration);
  }

  /** Every section but the last spans at least the minimum duration; the last one falls short of
      it by less than one hop at most (when its run reached the end of the waveform). */
  lemma SectionDurations(silent: seq<bool>, n: nat, sr: nat, minDuration: real)
    requires sr > 0 && |silent| == FrameCount(n)
    ensures forall k :: 0 <= k < |Detect(silent, n, sr, minDuration)| - 1 ==>
      Detect(silent, n, sr, minDuration)[k].end - Detect(silent, n, sr, minDuration)[k].start >= minDuration
    ensures |Detect(silent, n, sr, minDuration)| > 0 ==>
      var last := Detect(silent, n, sr, minDuration)[|Detect(silent, n, sr, minDuration)| - 1];
      last.end - last.start > minDuration - HopDuration(sr)
  {
    RunsFromAreMaximalRuns(silent);
    EmittedDurations(RunsFrom(silent, 0), |silent|, n, sr, minDuration);
  }

  lemma {:induction false} NoRunsWithoutSilence(silent: seq<bool>, i: nat)
    requires i <= |silent| && forall k :: 0 <= k < |silent| ==> !silent[k]
    ensures RunsFrom(silent, i) == []
    decreases |silent| - i
  {
    if i < |silent| {
      NoRunsWithoutSilence(silent, i + 1);
    }
  }

  /** No silent frame, no section. */
  lemma NoSilentFrameNoSections(silent: seq<bool>, n: nat, sr: nat, minDuration: real)
    requires sr > 0 && forall k :: 0 <= k < |silent| ==> !silent[k]
    ensures Detect(silent, n, sr, minDuration) == []
  {
    NoRunsWithoutSilence(silent, 0);
  }

  /** All frames silent: one section spanning the whole waveform, when long enough. */
  lemma AllSilentGivesWholeWaveform(silent: seq<bool>, n: nat, sr: nat, minDuration: real)
    requires sr > 0 && n > 0 && |silent| == FrameCount(n)
    requires forall k :: 0 <= k < |silent| ==> silent[k]
    ensures Detect(silent, n, sr, minDuration)
      == if FrameCount(n) as real * HopDuration(sr) >= minDuration then [Interval(0.0, n as real / sr as real)] else []
  {
    FrameOffsets(n, 0);
    assert RunEnd(silent, 0) == |silent|;
    assert RunsFrom(silent, 0) == [Run(0, |silent|)] + RunsFrom(silent, |silent|);
    assert RunsFrom(silent, 0) == [Run(0, |silent|)];
    EmittedCons(Run(0, |silent|), [], |silent|, n, sr, minDuration);
    assert Time(0, sr) == 0.0;
  }

  /** A frame exactly at the threshold is not silent: when no window's dB energy is below the
      threshold (as with a threshold of minus infinity), nothing is reported. */
  lemma NothingBelowThresholdNoSections(y: seq<real>, sr: nat, toDb: real -> real, threshold: real, minDuration: real)
    requires sr > 0
    requires forall k :: 0 <= k < |EnergyDb(y, toDb)| ==> EnergyDb(y, toDb)[k] >= threshold
    ensures SilentSections(y, sr, toDb, threshold, minDuration) == []
  {
    NoSilentFrameNoSections(SilenceFlags(EnergyDb(y, toDb), threshold), |y|, sr, minDuration);
  }

  /** A waveform whose every window is below the threshold gives exactly `[[0, len(y) / sr]]` when
      its frames add up to the minimum, and nothing otherwise. */
  lemma AllBelowThresholdWholeWaveform(y: seq<real>, sr: nat, toDb: real -> real, threshold: real, minDuration: real)
    requires sr > 0 && |y| > 0
    requires forall k :: 0 <= k < |EnergyDb(y, toDb)| ==> EnergyDb(y, toDb)[k] < threshold
    ensures SilentSections(y, sr, toDb, threshold, minDuration)
      == if FrameCount(|y|) as real * HopDuration(sr) >= minDuration then [Interval(0.0, |y| as real / sr as real)] else []
  {
    var db := EnergyDb(y, toDb);
    EnergyDbLength(y, toDb);
    AllBelowAllSilent(db, threshold);
    AllSilentGivesWholeWaveform(SilenceFlags(db, threshold), |y|, sr, minDuration);
  }

  /** One dB value per frame. */
  lemma EnergyDbLength(y: seq<real>, toDb: real -> real)
    ensures |EnergyDb(y, toDb)| == FrameCount(|y|)
  {
  }

  lemma AllBelowAllSilent(db: seq<real>, threshold: real)
    requires forall k :: 0 <= k < |db| ==> db[k] < threshold
    ensures |SilenceFlags(db, threshold)| == |db|
    ensures forall k :: 0 <= k < |db| ==> SilenceFlags(db, threshold)[k]
  {
  }
}

=== FILE: silence_legacy.dfy ===
/**
 * The older copy of `detect_silent_sections`. It computes the same frames, flags and grouping as
 * the current one; the only difference is a debug loop over the dB values whose body only
 * assigns a local time (its print is commented out).
 */
module SilenceDetectionLegacy {
  import opened Py
  import opened SilenceDetection

  /** `detect_silent_sections` of the older script on an already loaded waveform: the debug loop
      changes nothing, so the result is the one `SilentSections` specifies, the same for every
      call on the same waveform and parameters. */
  method DetectSilentSections(y: seq<real>, sr: nat, toDb: real -> real, silenceThreshold: real,
                              minSilenceDuration: real)
    returns (sections: seq<Interval>)
    requires sr > 0
    ensures sections == SilentSections(y, sr, toDb, silenceThreshold, minSilenceDuration)
  {
    var energyDb := EnergyDb(y, toDb);
    var silenceFrames := SilenceFlags(energyDb, silenceThreshold);
    for i := 0 to |energyDb| {
      var time := Time(i, sr);
    }
    sections := GroupSilentFrames(silenceFrames, |y|, sr, minSilenceDuration);
  }
}

=== FILE: soro.dfy ===
/**
 * What `insert_soro_records` inserts: each detected section that hits no section already stored
 * for the song becomes a new row with `is_guitar_soro = False` and no guitar score; and
 * `extract_song_id`, which reads the song id from a folder named `<id>_<title>`.
 */
module SoroRecords {
  import opened Py
  import opened PyText
  import opened SilenceDetection

  /** A row of the Soro table as inserted. */
  datatype SoroRow = SoroRow(songId: int, start: real, end: real, isGuitarSoro: bool, guitarScore: Option<real>)

  /** The overlap test of the duplicate check: the same bounds, or either bound of the new section
      inside the stored one (bounds included). */
  predicate Hits(section: Interval, stored: Interval)
  {
    || (section.start == stored.start && section.end == stored.end)
    || (section.start >= stored.start && section.start <= stored.end)
    || (section.end >= stored.start && section.end <= stored.end)
  }

  predicate IsDuplicate(section: Interval, existing: seq<Interval>)
  {
    exists j :: 0 <= j < |existing| && Hits(section, existing[j])
  }

  /** The rows inserted for `sections`, in order; every section is checked against the stored
      sections only. */
  function NewRows(songId: int, sections: seq<Interval>, existing: seq<Interval>): seq<SoroRow>
  {
    if sections == [] then []
    else
      var last := sections[|sections| - 1];
      NewRows(songId, sections[..|sections| - 1], existing)
      + (if IsDuplicate(last, existing) then [] else [SoroRow(songId, last.start, last.end, false, None)])
  }

  /** The loop of `insert_soro_records`, with `existing` the stored sections fetched once before
      it and the returned rows standing for the INSERTs it executes. */
  method SelectRowsToInsert(songId: int, sections: seq<Interval>, existing: seq<Interval>)
    returns (rows: seq<SoroRow>)
    ensures rows == NewRows(songId, sections, existing)
  {
    rows := [];
    for k := 0 to |sections|
      invariant rows == NewRows(songId, sections[..k], existing)
    {
      var section := sections[k];
      var isDuplicate := false;
      var j := 0;
      while j < |existing|
        invariant 0 <= j <= |existing|
        invariant !isDuplicate ==> forall i :: 0 <= i < j ==> !Hits(section, existing[i])
        invariant isDuplicate ==> IsDuplicate(section, existing)
      {
        if Hits(section, existing[j]) {
          isDuplicate := true;
          break;
        }
        j := j + 1;
      }
      assert sections[..k + 1][..k] == sections[..k];
      if !isDuplicate {
        rows := rows + [SoroRow(songId, section.start, section.end, false, None)];
      }
    }
    assert sections[..|sections|] == sections;
  }

  /** For a stored section whose start is not after its end, the exact-equality test is subsumed
      by the two containment tests. */
  lemma HitsIffBoundInside(section: Interval, stored: Interval)
    requires stored.start <= stored.end
    ensures Hits(section, stored) <==>
      (stored.start <= section.start <= stored.end) || (stored.start <= section.end <= stored.end)
  {
  }

  /** A section that strictly encloses a stored one is not a duplicate of it. */
  lemma EnclosingIsNotHit(section: Interval, stored: Interval)
    requires section.start < stored.start && stored.end < section.end
    ensures !Hits(section, stored)
  {
  }

  /** Sections are judged independently of each other, in order. */
  lemma {:induction false} NewRowsAppend(songId: int, a: seq<Interval>, b: seq<Interval>, existing: seq<Interval>)
    ensures NewRows(songId, a + b, existing) == NewRows(songId, a, existing) + NewRows(songId, b, existing)
    decreases |b|
  {
    if b == [] {
      assert a + b == a;
    } else {
      var b' := b[..|b| - 1];
      assert (a + b)[..|a + b| - 1] == a + b';
      assert (a + b)[|a + b| - 1] == b[|b| - 1];
      NewRowsAppend(songId, a, b', existing);
    }
  }

  /** A row is inserted for a section exactly when it hits no stored section, and every inserted
      row is for one of the sections, not marked as a guitar solo and without a score. */
  lemma {:induction false} NewRowsSpec(songId: int, sections: seq<Interval>, existing: seq<Interval>)
    ensures forall s :: s in sections && !IsDuplicate(s, existing) ==>
      SoroRow(songId, s.start, s.end, false, None) in NewRows(songId, sections, existing)
    ensures forall row :: row in NewRows(songId, sections, existing) ==>
      && row.songId == songId && !row.isGuitarSoro && row.guitarScore == None
      && exists s :: s in sections && !IsDuplicate(s, existing) && row.start == s.start && row.end == s.end
    ensures |NewRows(songId, sections, existing)| <= |sections|
  {
    if sections != [] {
      var init := sections[..|sections| - 1];
      NewRowsSpec(songId, init, existing);
      assert sections == init + [sections[|sections| - 1]];
    }
  }

  /** Sections of the same call are never compared with each other: two identical new sections
      that hit nothing stored are both inserted. */
  lemma RepeatedSectionInsertedTwice(songId: int, section: Interval, existing: seq<Interval>)
    requires !IsDuplicate(section, existing)
    ensures NewRows(songId, [section, section], existing)
      == [SoroRow(songId, section.start, section.end, false, None), SoroRow(songId, section.start, section.end, false, None)]
  {
    var row := SoroRow(songId, section.start, section.end, false, None);
    assert [section][..0] == [];
    assert NewRows(songId, [section], existing) == [row];
    assert [section, section][..1] == [section];
    assert NewRows(songId, [section, section], existing) == NewRows(songId, [section], existing) + [row];
  }

  /** `extract_song_id(folder_name)`: the text before the first '_' as an integer, or None. */
  function ExtractSongId(folderName: string): Option<int>
  {
    ParseInt(BeforeFirst(folderName, "_"))
  }

  /** A folder named `<id>_<title>` yields `<id>`, or None when the id has more digits than
      `int()` accepts. */
  lemma ExtractSongIdRoundTrip(songId: int, title: string)
    ensures ExtractSongId(ShowInt(songId) + "_" + title) ==
              if WithinDigitLimit(songId) then Some(songId) else None
  {
    var digits := ShowNat(if songId < 0 then -songId else songId);
    assert forall k :: 0 <= k < |ShowInt(songId)| ==> ShowInt(songId)[k] != '_' by {
      if songId < 0 {
        assert forall k :: 1 <= k < |ShowInt(songId)| ==> ShowInt(songId)[k] == digits[k - 1];
      }
    }
    BeforeFirstOfJoin(ShowInt(songId), "_", title);
    ParseShowRoundTrip(songId);
  }
}

=== FILE: style.dfy ===
/**
 * `detect_guitar_playing_style_with_dominance`: every interval of a guitar stem is cut into
 * sub-frames of `int(frame_duration * sr)` samples; the dominant pitches of each sub-frame are
 * counted, and the interval is single-note playing when the average count per sub-frame is at
 * most 2, chordal otherwise.
 *
 * Harmonic/percussive separation followed by pitch tracking of one sub-frame is the parameter
 * `track`, which yields the columns of bins of that sub-frame or the exception it raised.
 */
module PlayingStyle {
  import opened Py
  import opened Segmenting
  import opened DominantPitch

  const DefaultFrameDuration: real := 0.1

  datatype Style = SingleNote | Chordal

  /** An interval to classify, in seconds. */
  datatype Span = Span(start: real, end: real)

  /** `(start_time, end_time, style)`. */
  datatype StyleResult = StyleResult(start: real, end: real, style: Style)

  /** `int(frame_duration * sr)`. */
  function FrameLength(frameDuration: real, sr: nat): int
  {
    Trunc(Times(frameDuration, sr))
  }

  /** `y[int(start_time * sr):int(end_time * sr)]`. */
  function SectionAudio(y: seq<real>, span: Span, sr: nat): seq<real>
  {
    Slice(y, Trunc(Times(span.start, sr)), Trunc(Times(span.end, sr)))
  }

  /** `len(section_audio) // frame_length + 1`. */
  function NumFrames(len: nat, frameLength: int): int
    requires frameLength != 0
  {
    FloorDiv(len, frameLength) + 1
  }

  /** `section_audio[i * frame_length:min((i + 1) * frame_length, len(section_audio))]`. */
  function SubFrame(section: seq<real>, frameLength: int, i: nat): seq<real>
  {
    Slice(section, Mul(i, frameLength), Min(Mul(i + 1, frameLength), |section|))
  }

  /** The number of dominant pitches found in one sub-frame, or the exception tracking raised. */
  function CountOf(frame: seq<real>, track: seq<real> -> Result<seq<seq<Bin>>>, threshold: real): Result<nat>
  {
    match track(frame)
    case Err(e) => Err(e)
    case Ok(columns) => Ok(|DominantPitches(columns, threshold, DefaultLowFrequency, DefaultHighFrequency)|)
  }

  /** The sub-frames 0 .. m - 1 of a section. */
  function SubFrames(section: seq<real>, frameLength: int, m: nat): seq<seq<real>>
  {
    seq(m, i requires 0 <= i < m => SubFrame(section, frameLength, i))
  }

  /** The dominant pitches summed over sub-frames 0 .. m - 1 of a section, in order; the first
      failure aborts. */
  function PitchCount(section: seq<real>, frameLength: int, m: nat,
                      track: seq<real> -> Result<seq<seq<Bin>>>, threshold: real): Result<nat>
  {
    if m == 0 then Ok(0)
    else
      match PitchCount(section, frameLength, m - 1, track, threshold)
      case Err(e) => Err(e)
      case Ok(c) =>
        match CountOf(SubFrame(section, frameLength, m - 1), track, threshold)
        case Err(e) => Err(e)
        case Ok(d) => Ok(c + d)
  }

  /** `avg_dominant_pitch_count <= 2`. */
  function Label(count: nat, frames: nat): Style
    requires frames > 0
  {
    if count as real / frames as real <= 2.0 then SingleNote else Chordal
  }

  /** The result for one interval. A zero frame length makes `//` raise; a frame count that is not
      positive leaves `total_frames` at 0, and the average then divides by zero. */
  function ClassifySpan(y: seq<real>, sr: nat, frameLength: int, span: Span,
                        track: seq<real> -> Result<seq<seq<Bin>>>, threshold: real): Result<StyleResult>
  {
    var section := SectionAudio(y, span, sr);
    if frameLength == 0 then Err(ZeroDivisionError)
    else
      var numFrames := NumFrames(|section|, frameLength);
      if numFrames <= 0 then Err(ZeroDivisionError)
      else
        match PitchCount(section, frameLength, numFrames, track, threshold)
        case Err(e) => Err(e)
        case Ok(count) => Ok(StyleResult(span.start, span.end, Label(count, numFrames)))
  }

  /** The results for the intervals, in order; the first failing interval aborts the call. */
  function ClassifyAll(y: seq<real>, sr: nat, frameLength: int, spans: seq<Span>,
                       track: seq<real> -> Result<seq<seq<Bin>>>, threshold: real): Result<seq<StyleResult>>
  {
    if spans == [] then Ok([])
    else
      match ClassifyAll(y, sr, frameLength, spans[..|spans| - 1], track, threshold)
      case Err(e) => Err(e)
      case Ok(results) =>
        match ClassifySpan(y, sr, frameLength, spans[|spans| - 1], track, threshold)
        case Err(e) => Err(e)
        case Ok(r) => Ok(results + [r])
  }

  /** Once the first i sub-frames fail, the whole count fails with that error. */
  lemma {:induction false} PitchCountErrPropagates(section: seq<real>, frameLength: int, i: nat, m: nat,
                                                   track: seq<real> -> Result<seq<seq<Bin>>>, threshold: real)
    requires i <= m && PitchCount(section, frameLength, i, track, threshold).Err?
    ensures PitchCount(section, frameLength, m, track, threshold) == PitchCount(section, frameLength, i, track, threshold)
  {
    if i < m {
      PitchCountErrPropagates(section, frameLength, i, m - 1, track, threshold);
    }
  }

  /** Once a prefix of the intervals fails, the whole call fails with that error. */
  lemma {:induction false} ClassifyAllErrPropagates(y: seq<real>, sr: nat, frameLength: int, spans: seq<Span>, m: nat,
                                                    track: seq<real> -> Result<seq<seq<Bin>>>, threshold: real)
    requires m <= |spans| && ClassifyAll(y, sr, frameLength, spans[..m], track, threshold).Err?
    ensures ClassifyAll(y, sr, frameLength, spans, track, threshold) == ClassifyAll(y, sr, frameLength, spans[..m], track, threshold)
    decreases |spans| - m
  {
    if m < |spans| {
      var init := spans[..|spans| - 1];
      assert init[..m] == spans[..m];
      ClassifyAllErrPropagates(y, sr, frameLength, init, m, track, threshold);
    } else {
      assert spans[..m] == spans;
    }
  }

  /** One more sub-frame adds its own count to the running total. */
  lemma PitchCountStep(section: seq<real>, frameLength: int, i: nat,
                       track: seq<real> -> Result<seq<seq<Bin>>>, threshold: real, count: nat, more: nat)
    requires PitchCount(section, frameLength, i, track, threshold) == Ok(count)
    requires CountOf(SubFrame(section, frameLength, i), track, threshold) == Ok(more)
    ensures PitchCount(section, frameLength, i + 1, track, threshold) == Ok(count + more)
  {
  }

  /** The body of the sub-frame loop: cut sub-frame i, track its pitches and count the dominant
      ones. */
  method CountSubFrame(section: seq<real>, frameLength: int, i: nat,
                       track: seq<real> -> Result<seq<seq<Bin>>>, threshold: real)
    returns (result: Result<nat>)
    ensures result == CountOf(SubFrame(section, frameLength, i), track, threshold)
  {
    var frameStart := i * frameLength;
    var frameEnd := Min((i + 1) * frameLength, |section|);
    MulIsProduct(i, frameLength);
    MulIsProduct(i + 1, frameLength);
    var frameAudio := Slice(section, frameStart, frameEnd);
    var tracked := track(frameAudio);
    if tracked.Err? {
      return Err(tracked.error);
    }
    var dominantPitches := AnalyzeDominantPitch(tracked.value, threshold, DefaultLowFrequency, DefaultHighFrequency);
    return Ok(|dominantPitches|);
  }

  /** The sub-frame loop for one interval's audio, from the frame count on. */
  method CountDominantPitches(section: seq<real>, frameLength: int, numFrames: int,
                              track: seq<real> -> Result<seq<seq<Bin>>>, threshold: real)
    returns (result: Result<nat>, totalFrames: nat)
    ensures numFrames <= 0 ==> result == Ok(0) && totalFrames == 0
    ensures numFrames > 0 ==> result == PitchCount(section, frameLength, numFrames, track, threshold)
    ensures numFrames > 0 && result.Ok? ==> totalFrames == numFrames
  {
    var dominantPitchCount := 0;
    totalFrames := 0;
    if numFrames <= 0 {
      // `range(num_frames)` is empty
      return Ok(0), 0;
    }
    for i := 0 to numFrames
      invariant totalFrames == i
      invariant PitchCount(section, frameLength, i, track, threshold) == Ok(dominantPitchCount)
    {
      var counted := CountSubFrame(section, frameLength, i, track, threshold);
      if counted.Err? {
        PitchCountErrPropagates(section, frameLength, i + 1, numFrames, track, threshold);
        return Err(counted.error), totalFrames;
      }
      PitchCountStep(section, frameLength, i, track, threshold, dominantPitchCount, counted.value);
      dominantPitchCount := dominantPitchCount + counted.value;
      totalFrames := totalFrames + 1;
    }
    return Ok(dominantPitchCount), totalFrames;
  }

  /** The body of the loop over intervals: the result for one interval. */
  method ClassifyOne(y: seq<real>, sr: nat, frameLength: int, span: Span,
                     track: seq<real> -> Result<seq<seq<Bin>>>, threshold: real)
    returns (result: Result<StyleResult>)
    ensures result == ClassifySpan(y, sr, frameLength, span, track, threshold)
  {
    var sectionAudio := SectionAudio(y, span, sr);
    if frameLength == 0 {
      return Err(ZeroDivisionError);
    }
    var numFrames := FloorDiv(|sectionAudio|, frameLength) + 1;
    assert numFrames == NumFrames(|sectionAudio|, frameLength);
    var count, totalFrames := CountDominantPitches(sectionAudio, frameLength, numFrames, track, threshold);
    if count.Err? {
      return Err(count.error);
    }
    if totalFrames == 0 {
      return Err(ZeroDivisionError);
    }
    return Ok(StyleResult(span.start, span.end, Label(count.value, totalFrames)));
  }

  /** `detect_guitar_playing_style_with_dominance` on an already loaded waveform. */
  method DetectGuitarPlayingStyle(y: seq<real>, sr: nat, spans: seq<Span>, frameDuration: real,
                                  threshold: real, track: seq<real> -> Result<seq<seq<Bin>>>)
    returns (result: Result<seq<StyleResult>>)
    ensures result == ClassifyAll(y, sr, FrameLength(frameDuration, sr), spans, track, threshold)
  {
    var results: seq<StyleResult> := [];
    var frameLength := FrameLength(frameDuration, sr);
    for k := 0 to |spans|
      invariant ClassifyAll(y, sr, frameLength, spans[..k], track, threshold) == Ok(results)
    {
      assert spans[..k + 1][..k] == spans[..k] && spans[..k + 1][k] == spans[k];
      var classified := ClassifyOne(y, sr, frameLength, spans[k], track, threshold);
      if classified.Err? {
        ClassifyAllErrPropagates(y, sr, frameLength, spans, k + 1, track, threshold);
        return Err(classified.error);
      }
      results := results + [classified.value];
    }
    assert spans[..|spans|] == spans;
    return Ok(results);
  }

  // ---------------------------------------------------------------------------------------------
  // Properties
  // ---------------------------------------------------------------------------------------------

  /** An interval is single-note playing exactly when its dominant pitches number at most twice its
      sub-frames: an average of exactly 2 is still single-note. */
  lemma LabelIsAverageAtMostTwo(count: nat, frames: nat)
    requires frames > 0
    ensures Label(count, frames) == SingleNote <==> count <= 2 * frames
  {
    QuotientAtMost(count as real, frames as real, 2.0);
    assert 2.0 * frames as real == (2 * frames) as real;
  }

  lemma QuotientAtMost(a: real, b: real, c: real)
    requires b > 0.0
    ensures a / b <= c <==> a <= c * b
  {
    var q := a / b;
    assert q * b == a;
    assert c * b - q * b == (c - q) * b;
    if q <= c {
      assert (c - q) * b >= 0.0;
    } else {
      assert (q - c) * b > 0.0;
    }
  }

  /** Rounding the number of segments up counts one fewer than `len // frame_length + 1` exactly
      when the frame length divides the section evenly. */
  lemma CeilDivVsFloorDiv(len: nat, fl: nat)
    requires fl > 0
    ensures CeilDiv(len, fl) == if len % fl == 0 then len / fl else len / fl + 1
  {
    var q, r := len / fl, len % fl;
    assert len == q * fl + r;
    assert (q + 1) * fl == q * fl + fl;
    assert (q + 2) * fl == q * fl + fl + fl;
    if r == 0 {
      DivAtLeast(len + fl - 1, fl, q);
      DivBelow(len + fl - 1, fl, q + 1);
    } else {
      DivAtLeast(len + fl - 1, fl, q + 1);
      DivBelow(len + fl - 1, fl, q + 2);
    }
  }

  /** For a positive frame length the sub-frames are the segments of the section, followed by one
      empty sub-frame when the length divides the section evenly. */
  lemma SubFramesAreChunks(section: seq<real>, frameLength: nat)
    requires frameLength > 0
    ensures NumFrames(|section|, frameLength) == |section| / frameLength + 1
    ensures SubFrames(section, frameLength, NumFrames(|section|, frameLength))
      == Chunks(section, frameLength) + (if |section| % frameLength == 0 then [[]] else [])
  {
    var len, fl := |section|, frameLength;
    var frames := SubFrames(section, fl, len / fl + 1);
    var chunks := Chunks(section, fl);
    var tail: seq<seq<real>> := if len % fl == 0 then [[]] else [];
    CeilDivVsFloorDiv(len, fl);
    assert |frames| == |chunks| + |tail|;
    forall i | 0 <= i < |frames| ensures frames[i] == (chunks + tail)[i] {
      if i < |chunks| {
        SubFrameIsChunk(section, fl, i);
      } else {
        LastSubFrameIsEmpty(section, fl);
      }
    }
  }

  /** A sub-frame that starts inside the section is the segment of the same index. */
  lemma SubFrameIsChunk(section: seq<real>, frameLength: nat, i: nat)
    requires frameLength > 0 && i < CeilDiv(|section|, frameLength)
    ensures SubFrame(section, frameLength, i) == Chunks(section, frameLength)[i]
  {
    MulIsProduct(i, frameLength);
    MulIsProduct(i + 1, frameLength);
    assert (i + 1) * frameLength == i * frameLength + frameLength;
    ChunkAt(section, frameLength, i);
  }

  /** When the frame length divides the section evenly, sub-frame `len // frame_length` starts at
      the end of the section and is empty. */
  lemma LastSubFrameIsEmpty(section: seq<real>, frameLength: nat)
    requires frameLength > 0 && |section| % frameLength == 0
    ensures SubFrame(section, frameLength, |section| / frameLength) == []
  {
    var len, q := |section|, |section| / frameLength;
    MulIsProduct(q, frameLength);
    assert q * frameLength == len by {
      assert len == q * frameLength + len % frameLength;
    }
  }

  /** Laid end to end, the sub-frames of a positive frame length give the section back. */
  lemma SubFramesCover(section: seq<real>, frameLength: nat)
    requires frameLength > 0
    ensures NumFrames(|section|, frameLength) >= 1
    ensures Concat(SubFrames(section, frameLength, NumFrames(|section|, frameLength))) == section
  {
    var frames := SubFrames(section, frameLength, NumFrames(|section|, frameLength));
    var chunks := Chunks(section, frameLength);
    SubFramesAreChunks(section, frameLength);
    ChunksConcat(section, frameLength);
    if |section| % frameLength == 0 {
      assert frames == chunks + [[]];
      ConcatEmptyLast(chunks);
    } else {
      assert frames == chunks + [];
      assert frames == chunks;
    }
  }

  /** Sub-frame i of a positive frame length holds `frame_length` samples, except the last one
      (i == len // frame_length), which holds the `len % frame_length` samples left over and is
      empty when the length divides the section evenly. */
  lemma SubFrameSize(section: seq<real>, frameLength: nat, i: nat)
    requires frameLength > 0 && i <= |section| / frameLength
    ensures |SubFrame(section, frameLength, i)| ==
      if i < |section| / frameLength then frameLength else |section| % frameLength
  {
    var start, stop := Mul(i, frameLength), Min(Mul(i + 1, frameLength), |section|);
    SubFrameBounds(|section|, frameLength, i);
    assert SubFrame(section, frameLength, i) == section[start..stop];
  }

  /** Where sub-frame i starts and ends. */
  lemma SubFrameBounds(len: nat, fl: nat, i: nat)
    requires fl > 0 && i <= len / fl
    ensures 0 <= Mul(i, fl) <= Min(Mul(i + 1, fl), len) <= len
    ensures i < len / fl ==> Min(Mul(i + 1, fl), len) - Mul(i, fl) == fl
    ensures i == len / fl ==> Min(Mul(i + 1, fl), len) - Mul(i, fl) == len % fl
  {
    var q := len / fl;
    MulIsProduct(i, fl);
    MulIsProduct(i + 1, fl);
    assert len == q * fl + len % fl;
    MulMonotone(i, q, fl);
    if i < q {
      MulMonotone(i + 1, q, fl);
    }
  }

  /** An interval whose end is not after its start, both at or after 0 s, cuts no audio. */
  lemma ReversedSpanIsEmpty(y: seq<real>, sr: nat, span: Span)
    requires 0.0 <= span.end <= span.start
    ensures SectionAudio(y, span, sr) == []
  {
    SampleOffsetsOrdered(span, sr);
    EmptySlice(y, Trunc(Times(span.start, sr)), Trunc(Times(span.end, sr)));
  }

  /** Scaling by the sample rate and truncating keeps the order of non-negative times. */
  lemma SampleOffsetsOrdered(span: Span, sr: nat)
    requires 0.0 <= span.end <= span.start
    ensures 0 <= Trunc(Times(span.end, sr)) <= Trunc(Times(span.start, sr))
  {
    TimesMonotone(span.end, span.start, sr);
    TimesNonNegative(span.end, sr);
    TruncMonotone(Times(span.end, sr), Times(span.start, sr));
  }

  lemma EmptySlice(y: seq<real>, lo: int, hi: int)
    requires 0 <= hi <= lo
    ensures Slice(y, lo, hi) == []
  {
  }

  /** An empty section is one empty sub-frame, whatever the (non-zero) frame length. */
  lemma EmptySectionIsOneEmptySubFrame(frameLength: int)
    requires frameLength != 0
    ensures NumFrames(0, frameLength) == 1
    ensures SubFrames([], frameLength, 1) == [[]]
  {
    assert SubFrames([], frameLength, 1)[0] == [];
  }

  /** The default sub-frame of 0.1 s holds `sr // 10` samples. */
  lemma DefaultFrameLength(sr: nat)
    ensures FrameLength(DefaultFrameDuration, sr) == sr / 10
  {
    TimesIsProduct(DefaultFrameDuration, sr);
    var q := sr / 10;
    assert sr == 10 * q + sr % 10;
    assert q as real <= DefaultFrameDuration * sr as real < (q + 1) as real;
  }

  /** A frame length that is not positive fails every non-empty section with ZeroDivisionError. */
  lemma NonPositiveFrameLengthFails(y: seq<real>, sr: nat, frameLength: int, span: Span,
                                    track: seq<real> -> Result<seq<seq<Bin>>>, threshold: real)
    requires frameLength <= 0 && |SectionAudio(y, span, sr)| > 0
    ensures ClassifySpan(y, sr, frameLength, span, track, threshold) == Err(ZeroDivisionError)
  {
    if frameLength < 0 {
      var len := |SectionAudio(y, span, sr)|;
      DivAtLeast(len + (-frameLength) - 1, -frameLength, 1);
    }
  }

  /** Classification succeeds exactly when every interval does. */
  lemma {:induction false} ClassifyAllSucceedsIff(y: seq<real>, sr: nat, frameLength: int, spans: seq<Span>,
                                                  track: seq<real> -> Result<seq<seq<Bin>>>, threshold: real)
    ensures ClassifyAll(y, sr, frameLength, spans, track, threshold).Ok? <==>
      forall k :: 0 <= k < |spans| ==> ClassifySpan(y, sr, frameLength, spans[k], track, threshold).Ok?
  {
    if spans != [] {
      var init := spans[..|spans| - 1];
      ClassifyAllSucceedsIff(y, sr, frameLength, init, track, threshold);
      assert forall k :: 0 <= k < |init| ==> init[k] == spans[k];
    }
  }

  /** A classified interval keeps its own start and end. */
  lemma ClassifySpanKeepsBounds(y: seq<real>, sr: nat, frameLength: int, span: Span,
                                track: seq<real> -> Result<seq<seq<Bin>>>, threshold: real)
    requires ClassifySpan(y, sr, frameLength, span, track, threshold).Ok?
    ensures ClassifySpan(y, sr, frameLength, span, track, threshold).value.start == span.start
    ensures ClassifySpan(y, sr, frameLength, span, track, threshold).value.end == span.end
  {
  }

  /** A successful classification yields one result per interval, in order. */
  lemma {:induction false} ClassifyAllResults(y: seq<real>, sr: nat, frameLength: int, spans: seq<Span>,
                                              track: seq<real> -> Result<seq<seq<Bin>>>, threshold: real)
    requires ClassifyAll(y, sr, frameLength, spans, track, threshold).Ok?
    ensures var results := ClassifyAll(y, sr, frameLength, spans, track, threshold).value;
      && |results| == |spans|
      && forall k :: 0 <= k < |spans| ==>
        ClassifySpan(y, sr, frameLength, spans[k], track, threshold) == Ok(results[k])
  {
    if spans != [] {
      var init := spans[..|spans| - 1];
      var last := ClassifySpan(y, sr, frameLength, spans[|spans| - 1], track, threshold);
      assert ClassifyAll(y, sr, frameLength, init, track, threshold).Ok? && last.Ok?;
      ClassifyAllResults(y, sr, frameLength, init, track, threshold);
      var prev := ClassifyAll(y, sr, frameLength, init, track, threshold).value;
      var results := ClassifyAll(y, sr, frameLength, spans, track, threshold).value;
      assert results == prev + [last.value];
      forall k | 0 <= k < |spans|
        ensures ClassifySpan(y, sr, frameLength, spans[k], track, threshold) == Ok(results[k])
      {
        if k < |init| {
          assert init[k] == spans[k];
        }
      }
    }
  }
}

=== FILE: text.dfy ===
/**
 * The string operations the song-id extraction relies on: Python's `int(str)`,
 * `str.split(sep)[0]`, and POSIX `os.path.dirname` / `os.path.basename`.
 */
module PyText {
  import opened Py

  predicate IsDigit(c: char) { '0' as int <= c as int <= '9' as int }

  /** The ASCII white space `int()` skips around a numeral: tab, line feed, vertical tab, form
      feed, carriage return and space. The separators U+1C..U+1F, white space for
      `str.isspace()`, are not skipped. */
  predicate IsSpace(c: char) { ('\t' <= c <= '\r') || c == ' ' }

  function TrimStart(s: string): (r: string)
    ensures |r| <= |s| && r == s[|s| - |r|..]
    ensures |r| > 0 ==> !IsSpace(r[0])
  {
    if |s| > 0 && IsSpace(s[0]) then TrimStart(s[1..]) else s
  }

  function TrimEnd(s: string): (r: string)
    ensures |r| <= |s| && r == s[..|r|]
    ensures |r| > 0 ==> !IsSpace(r[|r| - 1])
  {
    if |s| > 0 && IsSpace(s[|s| - 1]) then TrimEnd(s[..|s| - 1]) else s
  }

  /** `str.strip()` restricted to ASCII white space, as `int()` applies it to its argument. */
  function Strip(s: string): string { TrimEnd(TrimStart(s)) }

  /** A run of decimal digits in which single underscores may separate two digits ("1_000"). */
  predicate IsDigitString(s: string) {
    && |s| > 0
    && IsDigit(s[0])
    && IsDigit(s[|s| - 1])
    && (forall i :: 0 <= i < |s| ==> IsDigit(s[i]) || s[i] == '_')
    && (forall i :: 0 <= i < |s| - 1 ==> s[i] == '_' ==> s[i + 1] != '_')
  }

  /** The number the digits of `s` spell, read left to right, underscores skipped. */
  function DigitsValue(s: string): nat
  {
    if |s| == 0 then 0
    else if IsDigit(s[|s| - 1]) then 10 * DigitsValue(s[..|s| - 1]) + (s[|s| - 1] as int - '0' as int)
    else DigitsValue(s[..|s| - 1])
  }

  /** The default of `sys.get_int_max_str_digits()`: `int()` raises ValueError on a decimal
      numeral with more digits than this. */
  const MaxStrDigits := 4300

  /** The number of digits in `s`; underscores do not count. */
  function DigitCount(s: string): (n: nat)
    ensures n <= |s|
    ensures (forall i :: 0 <= i < |s| ==> IsDigit(s[i])) ==> n == |s|
  {
    if |s| == 0 then 0
    else DigitCount(s[..|s| - 1]) + (if IsDigit(s[|s| - 1]) then 1 else 0)
  }

  /** Python's `int(s)` in base 10: surrounding white space, an optional sign, then at most
      `MaxStrDigits` digits; anything else raises ValueError, modelled as None. */
  function ParseInt(s: string): Option<int>
  {
    var t := Strip(s);
    if |t| > 0 && (t[0] == '+' || t[0] == '-') then
      if IsDigitString(t[1..]) && DigitCount(t[1..]) <= MaxStrDigits then
        var v: int := DigitsValue(t[1..]);
        Some(if t[0] == '-' then -v else v)
      else None
    else if IsDigitString(t) && DigitCount(t) <= MaxStrDigits then Some(DigitsValue(t))
    else None
  }

  function DigitChar(d: nat): (c: char)
    requires d < 10
    ensures IsDigit(c) && c as int - '0' as int == d
  {
    ('0' as int + d) as char
  }

  /** The decimal numeral of `n` (Python's `str(n)`): digits only, spelling `n`. */
  function ShowNat(n: nat): (s: string)
    ensures |s| > 0 && forall i :: 0 <= i < |s| ==> IsDigit(s[i])
    ensures DigitsValue(s) == n
    decreases n
  {
    if n < 10 then [DigitChar(n)]
    else
      var prefix := ShowNat(n / 10);
      var s := prefix + [DigitChar(n % 10)];
      assert s[..|s| - 1] == prefix;
      s
  }

  /** The decimal numeral of an integer, with a leading '-' when it is negative. */
  function ShowInt(i: int): string
  {
    if i < 0 then "-" + ShowNat(-i) else ShowNat(i)
  }

  /** The numeral of `i`, sign aside, is short enough for `int()` to accept. */
  predicate WithinDigitLimit(i: int)
  {
    |ShowNat(if i < 0 then -i else i)| <= MaxStrDigits
  }

  /** `int(str(i)) == i`: parsing inverts rendering, up to the digit limit; past it `int()`
      raises ValueError. */
  lemma ParseShowRoundTrip(i: int)
    ensures ParseInt(ShowInt(i)) == if WithinDigitLimit(i) then Some(i) else None
  {
    if i < 0 {
      ParseNegativeNumeral(i);
    } else {
      ParseNumeral(i);
    }
  }

  lemma ParseNumeral(i: int)
    requires 0 <= i
    ensures ParseInt(ShowInt(i)) == if WithinDigitLimit(i) then Some(i) else None
  {
    var d := ShowNat(i);
    NumeralIsDigitString(i);
    StripKeeps(d);
    assert !(d[0] == '+' || d[0] == '-');
    assert DigitCount(d) == |d|;
  }

  lemma ParseNegativeNumeral(i: int)
    requires i < 0
    ensures ParseInt(ShowInt(i)) == if WithinDigitLimit(i) then Some(i) else None
  {
    var d := ShowNat(-i);
    var s := "-" + d;
    NumeralIsDigitString(-i);
    assert s[|s| - 1] == d[|d| - 1];
    StripKeeps(s);
    assert s[1..] == d;
    assert DigitCount(d) == |d|;
    assert Strip(s)[1..] == d;
  }

  /** A numeral is a run of digits with no underscore. */
  lemma NumeralIsDigitString(n: nat)
    ensures IsDigitString(ShowNat(n))
  {
    var d := ShowNat(n);
    assert IsDigit(d[0]) && IsDigit(d[|d| - 1]);
  }

  /** `strip()` leaves alone a string that neither starts nor ends with white space. */
  lemma StripKeeps(s: string)
    requires |s| > 0 && !IsSpace(s[0]) && !IsSpace(s[|s| - 1])
    ensures Strip(s) == s
  {
    assert TrimStart(s) == s;
    assert TrimEnd(s) == s;
  }

  /** `s` holds `sep` starting at index `i`. */
  predicate OccursAt(s: string, sep: string, i: nat) {
    i + |sep| <= |s| && s[i..i + |sep|] == sep
  }

  /** An occurrence one place further in `s` is an occurrence in `s` without its first character. */
  lemma OccursAtShift(s: string, sep: string, i: nat)
    requires i < |s| - 1
    ensures OccursAt(s, sep, i + 1) <==> OccursAt(s[1..], sep, i)
  {
    if i + 1 + |sep| <= |s| {
      assert s[i + 1..i + 1 + |sep|] == s[1..][i..i + |sep|];
    }
  }

  /** `s.split(sep)[0]`: the text before the first occurrence of `sep`, or all of `s`
      when `sep` does not occur. */
  function BeforeFirst(s: string, sep: string): (r: string)
    requires |sep| > 0
    ensures |r| <= |s| && r == s[..|r|]
    ensures forall i :: 0 <= i < |r| ==> !OccursAt(s, sep, i)
    ensures |r| < |s| ==> OccursAt(s, sep, |r|)
    decreases |s|
  {
    if |s| < |sep| then s
    else if s[..|sep|] == sep then []
    else
      var rest := BeforeFirst(s[1..], sep);
      assert forall i :: 0 <= i < |s| - 1 ==> (OccursAt(s, sep, i + 1) <==> OccursAt(s[1..], sep, i)) by {
        forall i | 0 <= i < |s| - 1 ensures OccursAt(s, sep, i + 1) <==> OccursAt(s[1..], sep, i) {
          OccursAtShift(s, sep, i);
        }
      }
      assert !OccursAt(s, sep, 0) by { assert s[0..|sep|] == s[..|sep|]; }
      var r := [s[0]] + rest;
      assert r == s[..|rest| + 1];
      assert forall i :: 0 <= i < |r| ==> !OccursAt(s, sep, i) by {
        forall i | 0 <= i < |r| ensures !OccursAt(s, sep, i) {
          if i > 0 { assert !OccursAt(s[1..], sep, i - 1); }
        }
      }
      assert |r| < |s| ==> OccursAt(s, sep, |r|);
      r
  }

  /** When the separator's first character does not occur in `a`, splitting `a + sep + rest`
      gives `a` back. */
  lemma BeforeFirstOfJoin(a: string, sep: string, rest: string)
    requires |sep| > 0
    requires forall i :: 0 <= i < |a| ==> a[i] != sep[0]
    ensures BeforeFirst(a + sep + rest, sep) == a
  {
    var s := a + sep + rest;
    var r := BeforeFirst(s, sep);
    assert OccursAt(s, sep, |a|) by { assert s[|a|..|a| + |sep|] == sep; }
    forall k | 0 <= k < |a| ensures !OccursAt(s, sep, k) {
      assert s[k] == a[k];
      assert s[k..k + |sep|][0] == s[k];
    }
    assert |r| == |a|;
    assert r == s[..|a|] == a;
  }

  /** `str.rfind('/')`: the index of the last slash, or -1. */
  function RFindSlash(p: string): (r: int)
    ensures -1 <= r < |p|
    ensures 0 <= r ==> p[r] == '/'
    ensures forall i :: r < i < |p| ==> p[i] != '/'
  {
    if |p| == 0 then -1
    else if p[|p| - 1] == '/' then |p| - 1
    else RFindSlash(p[..|p| - 1])
  }

  /** `os.path.basename(p)`: what follows the last slash. */
  function BaseName(p: string): (r: string)
    ensures forall i :: 0 <= i < |r| ==> r[i] != '/'
    ensures |r| <= |p| && r == p[|p| - |r|..]
  {
    p[RFindSlash(p) + 1..]
  }

  function RStripSlashes(s: string): (r: string)
    ensures |r| <= |s| && r == s[..|r|]
  {
    if |s| > 0 && s[|s| - 1] == '/' then RStripSlashes(s[..|s| - 1]) else s
  }

  predicate AllSlashes(s: string) { forall i :: 0 <= i < |s| ==> s[i] == '/' }

  /** `os.path.dirname(p)` (posixpath): everything up to the last slash, with trailing
      slashes removed unless the head is made of slashes only. */
  function DirName(p: string): string
  {
    var head := p[..RFindSlash(p) + 1];
    if head != [] && !AllSlashes(head) then RStripSlashes(head) else head
  }

  predicate NoSlash(s: string) { forall i :: 0 <= i < |s| ==> s[i] != '/' }

  /** The last slash of `a/b`, when `b` holds none, is the one just after `a`. */
  lemma {:induction false} LastSlash(a: string, b: string)
    requires NoSlash(b)
    ensures RFindSlash(a + "/" + b) == |a|
  {
    var p := a + "/" + b;
    if |b| == 0 {
      assert p == a + "/";
    } else {
      var b' := b[..|b| - 1];
      assert p[|p| - 1] == b[|b| - 1];
      assert p[..|p| - 1] == a + "/" + b';
      LastSlash(a, b');
    }
  }

  /** The directory part of `a/b`, when `b` holds no slash and `a` does not end with one, is `a`. */
  lemma DirNameOfJoin(a: string, b: string)
    requires |a| > 0 && a[|a| - 1] != '/' && NoSlash(b)
    ensures DirName(a + "/" + b) == a
  {
    var p := a + "/" + b;
    LastSlash(a, b);
    var head := p[..|a| + 1];
    assert head == a + "/";
    assert head[|a| - 1] != '/';
    assert head[..|head| - 1] == a;
    assert RStripSlashes(a) == a;
  }

  /** The name of the directory that directly contains `dir/folder/file` is `folder`. */
  lemma BaseNameOfDirName(dir: string, folder: string, file: string)
    requires |folder| > 0 && NoSlash(folder) && NoSlash(file)
    ensures BaseName(DirName(dir + "/" + folder + "/" + file)) == folder
  {
    var stripped := dir + "/" + folder;
    assert stripped[|stripped| - 1] == folder[|folder| - 1];
    DirNameOfJoin(stripped, file);
    LastSlash(dir, folder);
    assert stripped[|dir| + 1..] == folder;
  }
}

=== FILE: yamnet_detection.dfy ===
/**
 * `yamnet_guitar_detection`: the per-segment YAMNet scores of one time range, without any
 * fallback: the first segment whose inference raises aborts the whole call. The decision in
 * `main` is the same strict `max(scores) > 0.5`.
 */
module YamnetDetection {
  import opened Py
  import opened Segmenting

  /** `detect_guitar_in_segments` on an already loaded waveform. It succeeds exactly when
      segmenting and every segment's inference do, and then gives one score per segment, in
      segment order; otherwise it raises the error of segmenting or of the first failing segment. */
  method DetectGuitarInSegments(waveform: seq<real>, segmentDuration: real, sr: nat,
                                infer: seq<real> -> Result<real>)
    returns (result: Result<seq<real>>)
    ensures SegmentAudio(waveform, segmentDuration, sr).Err? ==> result == Err(ValueError)
    ensures SegmentAudio(waveform, segmentDuration, sr).Ok? ==>
      var segments := SegmentAudio(waveform, segmentDuration, sr).value;
      && (result.Ok? <==> forall k :: 0 <= k < |segments| ==> infer(segments[k]).Ok?)
      && (result.Ok? ==>
            && |result.value| == |segments|
            && forall k :: 0 <= k < |segments| ==> result.value[k] == infer(segments[k]).value)
      && (result.Err? ==>
            exists k :: 0 <= k < |segments| && infer(segments[k]).Err?
              && (forall j :: 0 <= j < k ==> infer(segments[j]).Ok?)
              && result.error == infer(segments[k]).error)
  {
    var segmented := SegmentAudio(waveform, segmentDuration, sr);
    if segmented.Err? {
      return Err(segmented.error);
    }
    var segments := segmented.value;
    var segmentScores: seq<real> := [];
    for k := 0 to |segments|
      invariant |segmentScores| == k
      invariant forall j :: 0 <= j < k ==> infer(segments[j]).Ok? && segmentScores[j] == infer(segments[j]).value
    {
      var inferred := infer(segments[k]);
      if inferred.Err? {
        return Err(inferred.error);
      }
      segmentScores := segmentScores + [inferred.value];
    }
    return Ok(segmentScores);
  }
}
